=== FILE: README.md ===
# Monte Carlo Tree Search tree mechanics, in Dafny

This project models the tree mechanics of the generic Monte Carlo Tree Search engine in
`src/mcts.py`. It covers the `Node` record and its statistics, the exploring selection vector
`ChildProbability`, greedy final selection, expansion (`AddChildren`), value backup (`BackProp`),
the one-ply truncation at the end of `_runMCTS`, the merge of worker trees (`_mergeAll`), the
checks and final choice of `FindMove`, and root navigation (`MoveRoot`, `ResetRoot`, `DropRoot`).

Modelling choices:

- A `Node` is an immutable datatype with exact `real` statistics.
- `Children` has the source's three states:
  - `Dropped` is Python `None`, after truncation or after a merge consumed the list;
  - `Slots([])` is the fresh empty list;
  - `Slots(s)` is the per-action list after expansion.
- Each node keeps its two caches `_childWinRates` and `_childPlays`. `ChildWinRates` and
  `ChildPlays` write into them in place, and `ChildProbability` adds its exploration term to the
  rate cache in place. The model does the same (`AfterChildWinRates`, `AfterChildProbability`).
- Parent back-references are positional. A node is addressed by its path of slot indices from
  the top of its tree, and its parent is the node at the path one index shorter. Re-parenting
  during a merge and setting `Parent` during expansion are therefore automatic.
- The `MCTS` object is `Engine.Mcts`. It holds the configuration, the whole tree its root
  belongs to, and the root's path in that tree.
- The game and evaluator hooks are function parameters: `legalOf` for `LegalActions`,
  `priorsOf` for `GetPriors`, `apply` for `ApplyAction` and `player` for `State.Player`.
  `RunSimulation` is a parameter `simulate`.
- Assertion failures and Python exceptions are `Err` values of `Common.Result`.
- The legal mask is a `seq<bool>`. The source uses a 0/1 array and tests `== 1`, or multiplies by it.

Modules: `Common` (result types, sums), `Tree` (node, paths, height), `Selection`, `Search`
(expansion, backup, truncation, play-budget loop), `Merge`, `Engine`.

## Model

| member | source | states |
|---|---|---|
| Tree.NewNode | src/mcts.py:15-27 | A new node has 0 plays, value 0, an empty Children list and zeroed caches. Its prior is 0 at every illegal action and the given prior at every legal one, so it satisfies the node invariant `WellFormed`. |
| Tree.WinRate | src/mcts.py:29-30 | The win rate is the average `IsAverage`: with plays > 0, the win rate times plays is the value; with no plays it is 0. `AvgValue` (lines 51-52) computes the same quotient. |
| Selection.ChildWinRates | src/mcts.py:32-36 | Every slot holding a child gets that child's win rate. Every other slot keeps what the cache held. |
| Selection.AfterChildWinRates | src/mcts.py:32-36 | The in-place refresh leaves the rate cache holding exactly the `ChildWinRates` vector. Nothing else changes, and the node invariant is kept. |
| Selection.RefreshStable | src/mcts.py:32-36 | Calling `ChildWinRates` again after the refresh returns the same vector. |
| Selection.ChildPlays | src/mcts.py:45-49 | Every slot holding a child gets that child's play count. Every other slot keeps what the cache held. All entries are non-negative. |
| Selection.Scores | src/mcts.py:39-41 | The `rates` vector after the in-place `+=`: one entry per action. At an occupied slot the entry is the child's win rate plus `f*prior*Plays/(1+child plays)`. At any other slot the cached rate and cached play count take the child's place. `ExpandedScores` shows the caches drop out on an expanded node. |
| Selection.ChildProbability | src/mcts.py:38-43 | The vector is defined exactly when the score total is non-zero; a zero total is numpy's NaN vector. It is 0 at every illegal action, and each entry is the entry's score divided by the total. |
| Selection.AfterChildProbability | src/mcts.py:38-41 | `rates` is the cache array itself, so after the call the rate cache holds the scores and the play cache the refreshed counts. Nothing else changes, and the node invariant (illegal cache entries zero) is kept. |
| Selection.ZeroFactorScores | src/mcts.py:38-41 | With exploration factor 0 the scores are exactly the child win rates. |
| Selection.IllegalScoresZero | src/mcts.py:41-43 | At an illegal action the score is 0, because the action has no child, a zero cache entry and a zero prior. |
| Selection.ProbabilitySumsToOne | src/mcts.py:38-43 | Whenever the vector is defined, its entries sum to exactly 1, for any exploration factor. |
| Selection.ExpandedScores | src/mcts.py:38-49 | On an expanded node the score of each legal action is `winRate + f*prior*Plays/(1+childPlays)` and each illegal score is 0, whatever the caches held. |
| Selection.ExpandedProbabilityIgnoresCaches | src/mcts.py:38-49 | On an expanded node the vector does not depend on the caches. Two nodes that differ only in their caches get the same vector. |
| Selection.FirstArgmax | src/mcts.py:151 | `np.argmax`: the result is an index whose entry is at least every entry and strictly greater than every earlier entry. |
| Selection.MaskedWinRates | src/mcts.py:151 | The vector `np.argmax` searches: the child's win rate at an occupied slot, 0 at every illegal action, and the cached rate at a legal action without a child. |
| Selection.SelectGreedy | src/mcts.py:142-151 | As written: `Err(NotExpanded)` when Children is None and an error on an empty action space. Otherwise the result is the first index maximising the masked win rates. |
| Selection.GreedyExample | src/mcts.py:148-151 | With legal mask [1,1,0] and children that won 8 of 10 and 2 of 10, the greedy choice is action 0. |
| Selection.GreedyCanPickIllegal | src/mcts.py:151 | Counterexample: legal mask [0,1] with the only legal child at win rate 0. The greedy choice is the illegal action 0. |
| Selection.BestLegalFrom | src/mcts.py:151 | This is the corrected search. It returns no index exactly when no index from `i` on is legal. Otherwise it returns the first legal index whose win rate is at least that of every legal index. |
| Selection.SelectGreedyLegal | src/mcts.py:148-151 | Corrected greedy choice: `Err(NotExpanded)` when Children is None. Otherwise it succeeds exactly when some action is legal, and returns the first legal action with the highest child win rate. |
| Selection.GreedyAgreesWhenLegal | src/mcts.py:151 | When the as-written choice is legal, the corrected choice equals it. |
| Search.AddChildren | src/mcts.py:158-168 | Children gets one slot per action and is occupied exactly at the legal actions, so the node is expanded. Slot `i` holds a freshly constructed node for `apply(state, i)`, and the node's own fields are unchanged. |
| Search.BackPropStep | src/mcts.py:205-212 | One step of the climb, seen from any node `q`: bumping the path node at depth `k` keeps `q` reachable exactly when it was, and keeps its Children state (None, or a list of the same length). It gives `q` its play and value exactly when `q` is that node. |
| Search.BackPropClimb | src/mcts.py:205-212 | After that step, every path node from depth `k` down has its play and value. Every node keeps its Children state (None, or a list of the same length with the same occupied slots), and every other node keeps its statistics. |
| Search.ClimbStep | src/mcts.py:206-207 | When the node at depth `k` is bumped, its parent is not bumped yet, so the parent's player read in the partly updated tree decides the gain. |
| Search.BackProp | src/mcts.py:204-213 | The tree keeps its shape: the same reachable nodes, and every node keeps its Children state (None, or a list of the same length with the same occupied slots). Every node from leaf to top gains exactly one play. Each non-top node on that path gains `v` when its parent's player is `playerForValue`, otherwise `1 - v`. The top's value is unchanged, and every node off the path is untouched. |
| Search.Truncate | src/mcts.py:113-115 | Truncation fails (TypeError) exactly when the root's Children is None. Otherwise the root's Children stays a list, and the root and its children keep their statistics and slots, and every child's Children becomes None. |
| Search.TruncatedIsOnePly | src/mcts.py:113-116 | A truncated tree has height at most 1. |
| Search.TruncateIdempotent | src/mcts.py:113-115 | Truncating twice is the same as truncating once. |
| Search.RunMCTS | src/mcts.py:110-116 | Assuming each episode adds one play at the root (a property of the `RunSimulation` hook, which the loop relies on to end), the result is the truncation of the root after exactly `nPlays - Plays` episodes, or none when the root already has `nPlays` plays. With a play budget the loop therefore leaves the root at `max(Plays, nPlays)` plays, and the result is at most one ply deep. |
| Search.SimulatedPlays | src/mcts.py:111-112 | Under the same assumption, `k` episodes add exactly `k` plays at the root. |
| Merge.Supplying | src/mcts.py:123 | The result holds exactly the input trees that have a Children list: every element is such an input, and every such input is in it (`KeepsSupplying`). It is empty exactly when every tree's Children is None. |
| Merge.SupplyingKeeps | src/mcts.py:123 | Every input tree with a Children list, at any index, is in the result. |
| Merge.SupplyingAppend | src/mcts.py:123 | Filtering a concatenation is concatenating the filtered parts. |
| Merge.SupplyingOne | src/mcts.py:123 | A single tree is kept exactly when its Children is not None. With `SupplyingAppend` this fixes the order and multiplicity of the result. |
| Merge.SupplyingHead | src/mcts.py:123-127 | Its first element is the first tree, in list order, whose Children is not None. This is the tree whose children a childless target adopts. |
| Merge.SlotAcross | src/mcts.py:138 | The result succeeds exactly when every tree has a child at slot `i`, and then lists those children in tree order. A short list or a None entry is a failure. |
| Merge.MergeWith | src/mcts.py:118-140 | The merge always succeeds when no tree supplies children (lines 124-125). The target's plays and value grow by exactly the sums over all trees. Without a supplying tree the children are untouched. Otherwise the result has the backbone's slots: the first supplier's, adopted when the target has none, else the target's own. Each child holds the backbone child's statistics plus those of the same slot in every remaining supplier, and keeps its subtree when none of them supplies deeper children. When it succeeds is stated by `CoveredMergeSucceeds` and `WorkersMerge`. |
| Merge.MergeSlots | src/mcts.py:135-138 | The loop over the backbone slots from `i` on. Each result slot holds a child exactly where the backbone slot does. That child has the backbone child's statistics plus those of the remaining trees' children at the same slot, and keeps its subtree when none of them supplies children. A tree missing that slot is a failure. |
| Merge.MergeOne | src/mcts.py:136-138 | One iteration: an empty backbone slot is skipped and always succeeds. A child gets the backbone child's statistics plus those of the remaining trees' children at that slot, and keeps its subtree when none of them supplies children. |
| Merge.MergeKeepsWellFormed | src/mcts.py:118-140 | Merging keeps the node invariant. This holds when the target is well formed and every supplying tree is well formed over the same legal mask. |
| Merge.MergeAll | src/mcts.py:118-140 | The merge as written is `MergeWith` with the uncorrected adoption test, so it inherits all of `MergeWith`'s promises. It succeeds when no tree supplies children, and it adds exactly the trees' summed plays and value to the target. |
| Merge.CoveredSlotMerges | src/mcts.py:136-138 | An occupied backbone slot merges successfully when every remaining tree has a child there whose Children is None. The recursive call then has no supplying tree. |
| Merge.CoveredSlotsMerge | src/mcts.py:135-138 | The whole loop over the backbone succeeds when the remaining trees cover every occupied backbone slot that way (`Covers`). |
| Merge.CoveredMergeSucceeds | src/mcts.py:118-140 | `_mergeAll` fails only at line 138, on a tree missing an occupied backbone slot. When the remaining trees cover the backbone one level deep, the merge succeeds. |
| Merge.WorkersCover | src/mcts.py:110-116 | Workers as `_runMCTS` returns them (expanded over the target's legal mask, children cut to one ply: `AlignedWorkers`) cover the backbone. This holds whether the backbone is adopted from the first worker or is a well-formed target's own. |
| Merge.WorkersMerge | src/mcts.py:97-140 | Hence merging such workers into a well-formed or adopting target always succeeds, with or without the correction. |
| Merge.MergeExample | src/mcts.py:118-121 | Two unexpanded trees with plays (3,5) and values (1.0,2.0), merged into a zeroed target, give 8 plays and value 3.0. |
| Merge.FirstWorkerIsBackbone | src/mcts.py:123-138 | Merge two expanded workers over the same legal mask into a childless target, the second worker truncated to one ply. The merge succeeds, and each child of the result has the first worker's subtree and the summed plays and value of both workers. |
| Merge.FreshTargetStaysEmpty | src/mcts.py:126-133 | As written, a target whose Children is the fresh empty list never adopts. The merge succeeds and the result still has no slots. |
| Merge.FreshTargetWidth | src/mcts.py:126-133 | With the corrected test, merging one-ply workers over the target's mask into a fresh target succeeds. The result has as many slots as the first supplying worker. |
| Merge.FreshTargetAdopts | src/mcts.py:126-133 | With the corrected test, merging one-ply workers into a fresh target succeeds, and the target takes over the first supplier's slots: same child states, at least the supplier's plays. |
| Tree.PutElsewhere | src/mcts.py:107 | Merging into `self.Root` in place only touches the root's subtree. A node above the root keeps its own fields and Children state, and a node beside the path to the root is unchanged, subtree included. |
| Tree.PutAddsNothingElsewhere | src/mcts.py:107 | Conversely, every node reachable after the replacement outside the root's subtree was reachable before. |
| Engine.PutFramed | src/mcts.py:107 | Together: replacing the root's subtree leaves the tree framed outside it (`FramedOutside`), in both directions. |
| Engine.Install | src/mcts.py:107 | The engine after the in-place merge: the root keeps its position and is the given node, the configuration is kept, and the tree is framed outside the root's subtree. |
| Engine.FirstMatch | src/mcts.py:185-190 | The result is the first slot, from `i` on, holding a child whose state is `s`. It is none exactly when no such slot exists. |
| Engine.MoveRootOnce | src/mcts.py:179-191 | No root: nothing changes. Root with Children None: the root is dropped. Otherwise the root moves to the first child whose state is `s`, and that node is left exactly as it was. With no match the root stays. |
| Engine.MoveRoot | src/mcts.py:170-177 | Moving over a list of states only navigates. The configuration is kept, and the tree is either kept with the root moved downwards or dropped. |
| Engine.ChildOfPrefix | src/mcts.py:196-197 | The node at path `p + [j]` is child `j` of the node at `p`. This is the positional form of `Parent`. |
| Engine.Up | src/mcts.py:196-197 | One step of `Root = Root.Parent`: at the top nothing changes. Otherwise the root moves to the node one level up, whose Children list holds the old root at the slot the path last took. Tree and configuration are kept. |
| Engine.ResetRoot | src/mcts.py:193-198 | The root climbs to the top of its tree. The tree and configuration are unchanged. |
| Engine.ResetUndoesMoves | src/mcts.py:170-198 | Resetting after any moves that did not drop the tree gives the same engine as resetting before them. |
| Engine.DropRoot | src/mcts.py:200-202 | Afterwards there is no root, and the configuration is unchanged. |
| Engine.Prime | src/mcts.py:74-86 | A root for the state is created only when there is none. The call fails with `RootStateMismatch` when the root holds another state, and otherwise fails exactly when no time or play budget is given or configured. Call-site values override the defaults. |
| Engine.FreshRootAfterDrop | src/mcts.py:82-86 | After `DropRoot`, the next search starts from a fresh root with 0 plays for its state. |
| Engine.FinalProbabilities | src/mcts.py:95 | `ChildProbability()` at the end of `FindMove`. It is defined exactly when the child win rates have a non-zero total. Each entry is then the action's child win rate divided by that total, and 0 at an illegal action; the entries sum to 1. |
| Engine.FinalProbabilitiesInPlace | src/mcts.py:93-95 | That vector is what `ChildProbability()` with factor 0 returns once the greedy step has refreshed the rate cache in place. |
| Engine.FinalRoot | src/mcts.py:93-95 | The greedy step and `ChildProbability()` change only the root's two caches: the rate cache ends up holding the child win rates and the play cache the child play counts. The node invariant is kept. |
| Engine.FinalRootInPlace | src/mcts.py:93-95 | That root is what the two in-place calls, `ChildWinRates()` and then `ChildProbability()` with factor 0, leave behind. |
| Engine.Conclude | src/mcts.py:93-95 | Fails with `NotExpanded` on a root whose Children is None, and with an error when no action is legal. Otherwise the action is exactly the choice of the corrected `SelectGreedyLegal`: the first legal action with the highest child win rate. It also returns that action's successor state. The average is value/plays, or 0 with no plays. The returned vector is exactly `FinalProbabilities` of the root: zero at illegal actions and summing to 1 when defined. The returned root is exactly `FinalRoot` of the root, so only its two caches differ. |
| Engine.MergeWorkers | src/mcts.py:97-107 | The merge succeeds exactly when `MergeWith` (corrected adoption test) does, and the new root is that merge's result, so everything `MergeWith` promises holds of it. In particular the root's plays and value grow by the workers' sums, and a fresh root takes the first supplying worker's slots. The configuration and the root's position are kept. Every node above the root keeps its own fields and Children state, every node beside the path to the root is unchanged, subtree included, and no node appears outside the root's subtree. |
| Engine.MergeWorkersKeepsWellFormed | src/mcts.py:97-107 | Workers that are well formed over the root's legal mask (`Compatible`) keep the merged root well formed, as `FindMove`'s final step needs. |
| Engine.MergeWorkersSucceeds | src/mcts.py:97-107 | Workers as `_runAsynch` collects them (`AlignedWorkers` over the root's legal mask) always merge into a well-formed root without error. |

## Left out

- The wall-clock budget (`time.time()` in `FindMove` and `_runMCTS`) is time-dependent input. `RunMCTS` models only the play-budget guard `root.Plays < nPlays`.
- The process pool, `_runAsynch`'s task submission and `__getstate__` are process-level plumbing. Only the merge of the returned trees is modelled (`MergeWorkers`).
- The random draw of exploring selection (`np.random.choice`) is left out. Only the probability vector it samples from is modelled.
- The abstract hooks `RunSimulation`, `GetPriors`, `ApplyAction`, `LegalActions` and `Winner` are stubs that raise `NotImplementedError`. They appear only as function parameters.
- `_applyAction` calls the bound method as `self.ApplyAction(self, state, action)`, which passes four arguments to the three-parameter hook `ApplyAction(self, state, action)` (line 228). With that declared signature the call raises `TypeError`, so neither `AddChildren` nor `FindMove` ever receives a state. Only an override that accepts the extra argument gets past it, and `_applyAction` then returns `None`. The model uses the transition `apply(state, i)` in both places instead.
- `FindMove` returns the bound method `AvgValue`, not its value. `Engine.Conclude` returns the value.
- `FindMove`'s third component is `ChildProbability()` with factor 0, not the configured exploration rate. The model follows the code.
- `FindMove` runs no search at all when `Threads` is below 1. The search episodes are parameters, so this branch is not modelled.
- The write-back of a finished search into the persistent tree is not modelled as one operation. `RunSimulation` may back values up past the current root to the top of the tree, and the model has no concrete episode to compose with.
- Selection.ChildWinRates: on a node whose Children is None the source raises inside `len`. The model makes this, and `ChildPlays`, `ChildProbability` and the greedy mask built on it, a precondition rather than an error value.
- Selection.ChildProbability: numpy's all-NaN vector for a zero total is `None`. Floating-point rounding is not modelled, since statistics are exact reals.
- Player identities are integers (`player: S -> int`). The source compares `State.Player` with `==` and nothing else.
- `softMax` uses floating-point `exp` and is not used by the core.
- All of `src/blackbird.py` (self-play, training, evaluation) is outside this model.

## Findings

| source | as written | input that shows it | evidently intended | confidence | as-written member | corrected member |
|---|---|---|---|---|---|---|
| src/mcts.py:151 | `np.argmax(np.multiply(ChildWinRates(), LegalActions))` gives every illegal action the masked value 0 | legal mask [0,1], the legal child at win rate 0 (all its playouts lost, or never visited): the choice is illegal action 0 | the best legal action | medium, not executed | Selection.GreedyCanPickIllegal | Selection.SelectGreedyLegal |
| src/mcts.py:126 | `_mergeAll` adopts children only when `target.Children is None`, but a fresh root's Children is `[]` | parallel `FindMove` on a new root: `Root` is built with `Children = []`, the workers return expanded trees, and the merged root keeps no children. The greedy step then sees an all-zero vector and picks action 0 whatever the workers found | adopt when the target has no children (`None` or `[]`) | medium, not executed | Merge.FreshTargetStaysEmpty | Merge.FreshTargetAdopts |

The rest of the model uses the corrected forms. `Engine.Conclude` chooses with
`Selection.SelectGreedyLegal`, and `Engine.MergeWorkers` merges with `Merge.MergeWith(…, true)`.
`Selection.SelectGreedy` and `Merge.MergeAll` keep the behaviour as written.

=== FILE: common.dfy ===
/** Shared result types and arithmetic helpers for the search-tree model. */
module Common {

  datatype Option<+T> = None | Some(value: T)

  /** Why an engine operation aborts.  Each one is an assertion or a Python
      exception in the search code; none of them is recovered from. */
  datatype Fault =
    | RootStateMismatch   // FindMove: the primed root holds another state
    | NoCutoff            // FindMove: neither a time nor a play budget
    | NotExpanded         // _selectAction on a node whose Children is None
    | EmptyActionSpace    // np.argmax over a zero-length vector
    | NotIterable         // iterating over Children when it is None
    | MisalignedTrees     // _mergeAll meets a worker slot that is missing or None

  datatype Result<+T> = Ok(value: T) | Err(fault: Fault)

  function Max(a: nat, b: nat): (m: nat)
    ensures a <= m && b <= m && (m == a || m == b)
  {
    if a < b then b else a
  }

  /** The sum of a vector, as Python's `sum` over a numpy array. */
  function Sum(xs: seq<real>): real
  {
    if xs == [] then 0.0 else xs[0] + Sum(xs[1..])
  }

  /** A non-zero real divided by itself is one. */
  lemma SelfQuotient(t: real)
    requires t != 0.0
    ensures t / t == 1.0
  {
  }

  /** A vector divided by its own non-zero sum sums to one. */
  lemma Normalised(xs: seq<real>, ys: seq<real>)
    requires Sum(xs) != 0.0
    requires |ys| == |xs|
    requires forall i :: 0 <= i < |xs| ==> ys[i] == xs[i] / Sum(xs)
    ensures Sum(ys) == 1.0
  {
    var t := Sum(xs);
    SumScaled(xs, ys, t);
    SelfQuotient(t);
  }

  /** Dividing every entry by `t` divides the sum by `t`. */
  lemma {:induction false} SumScaled(xs: seq<real>, ys: seq<real>, t: real)
    requires t != 0.0
    requires |ys| == |xs|
    requires forall i :: 0 <= i < |xs| ==> ys[i] == xs[i] / t
    ensures Sum(ys) == Sum(xs) / t
  {
    if xs != [] {
      SumScaled(xs[1..], ys[1..], t);
      assert ys[0] == xs[0] / t;
    }
  }
}

=== FILE: engine.dfy ===
/** The `MCTS` object: configuration, the persistent root and the operations the
    surrounding game loop calls on it (`FindMove`'s checks and final choice,
    the parallel merge into the root, `MoveRoot`, `ResetRoot`, `DropRoot`). */
module Engine {
  import opened Common
  import opened Tree
  import opened Selection
  import Merge

  /** An `MCTS` object.  `tree` is the whole tree the root belongs to (what
      climbing its parent links reaches) and `at` the root's path in it;
      `tree == None` is `Root is None`.  `explorationRate` is the factor of the
      exploring selection and `threads` chooses between the single-threaded loop
      and the worker pool; both are read only by the search episodes. */
  datatype Mcts<S> = Mcts(
    explorationRate: real,
    timeLimit: Option<real>,
    playLimit: Option<int>,
    threads: int,
    tree: Option<Node<S>>,
    at: seq<nat>)

  ghost predicate Valid<S>(e: Mcts<S>)
  {
    match e.tree
    case None => e.at == []
    case Some(t) => ValidPath(t, e.at)
  }

  /** `self.Root`. */
  function RootNode<S>(e: Mcts<S>): Node<S>
    requires Valid(e) && e.tree.Some?
  {
    At(e.tree.value, e.at)
  }

  // ------------------------------------------------------------- navigation

  predicate Matches<S(==)>(x: Slot<S>, s: S)
  {
    x.Child? && x.node.state == s
  }

  /** The loop of `_moveRoot`: the first child, from slot `i` on, whose state is `s`. */
  function FirstMatch<S(==)>(slots: seq<Slot<S>>, s: S, i: nat): (r: Option<nat>)
    requires i <= |slots|
    ensures r.Some? ==> i <= r.value < |slots| && Matches(slots[r.value], s)
    ensures r.Some? ==> forall j :: i <= j < r.value ==> !Matches(slots[j], s)
    ensures r.None? ==> forall j :: i <= j < |slots| ==> !Matches(slots[j], s)
    decreases |slots| - i
  {
    if i == |slots| then None
    else if Matches(slots[i], s) then Some(i)
    else FirstMatch(slots, s, i + 1)
  }

  /** `_moveRoot(s)`: nothing without a root; the root is dropped when its
      Children is None; otherwise the root moves to the first child whose state
      is `s`, and stays where it is when no child matches. */
  function MoveRootOnce<S(==)>(e: Mcts<S>, s: S): (r: Mcts<S>)
    requires Valid(e)
    ensures Valid(r)
    ensures e.tree.None? ==> r == e
    ensures e.tree.Some? && RootNode(e).children.Dropped? ==> r == e.(tree := None, at := [])
    ensures e.tree.Some? && RootNode(e).children.Slots? ==>
      var slots := RootNode(e).children.slots;
      && r.tree == e.tree
      && (r.at == e.at <==> forall j :: 0 <= j < |slots| ==> !Matches(slots[j], s))
      && (r.at != e.at ==>
            && |r.at| == |e.at| + 1 && r.at == e.at + [r.at[|e.at|]]
            && r.at[|e.at|] < |slots| && Matches(slots[r.at[|e.at|]], s)
            && RootNode(r) == ChildAt(RootNode(e), r.at[|e.at|])
            && forall j :: 0 <= j < r.at[|e.at|] ==> !Matches(slots[j], s))
    ensures r.(tree := e.tree, at := e.at) == e
  {
    match e.tree
    case None => e
    case Some(t) =>
      var root := At(t, e.at);
      match root.children
      case Dropped => e.(tree := None, at := [])
      case Slots(slots) =>
        match FirstMatch(slots, s, 0)
        case None => e
        case Some(j) =>
          var r := e.(at := e.at + [j]);
          assert RootNode(r) == ChildAt(root, j) && Valid(r) by {
            AtExtend(t, e.at, j);
          }
          r
  }

  /** Descending one slot from a reachable node. */
  lemma {:induction false} AtExtend<S>(t: Node<S>, p: seq<nat>, j: nat)
    requires ValidPath(t, p) && HasChild(At(t, p), j)
    ensures ValidPath(t, p + [j]) && At(t, p + [j]) == ChildAt(At(t, p), j)
    decreases |p|
  {
    if p == [] {
      assert ([] + [j])[1..] == [];
    } else {
      AtExtend(ChildAt(t, p[0]), p[1..], j);
      assert (p + [j])[1..] == p[1..] + [j];
    }
  }

  /** `MoveRoot(states)`: `_moveRoot` for each state in order.  Moving the root is
      pure navigation: the tree is either kept exactly, with the root moved only
      downwards, or dropped; the configuration never changes. */
  function MoveRoot<S(==)>(e: Mcts<S>, states: seq<S>): (r: Mcts<S>)
    requires Valid(e)
    ensures Valid(r)
    ensures r.(tree := e.tree, at := e.at) == e
    ensures r.tree.None? || (r.tree == e.tree && e.at <= r.at)
    decreases |states|
  {
    if states == [] then e else MoveRoot(MoveRootOnce(e, states[0]), states[1..])
  }

  /** `Root = Root.Parent`: the node one level up, whose Children list holds the
      root (the root itself at the top of the tree, where Parent is None). */
  function Up<S>(e: Mcts<S>): (r: Mcts<S>)
    requires Valid(e)
    ensures Valid(r)
    ensures r.(at := e.at) == e
    ensures e.at == [] ==> r == e
    ensures e.at != [] ==>
      var last := e.at[|e.at| - 1];
      && Valid(r) && r.tree.Some? && r.at + [last] == e.at
      && HasChild(RootNode(r), last) && ChildAt(RootNode(r), last) == RootNode(e)
  {
    if e.at == [] then e
    else
      var p := e.at[..|e.at| - 1];
      var last := e.at[|e.at| - 1];
      PrefixValid(e.tree.value, e.at, |e.at| - 1);
      assert p + [last] == e.at;
      ChildOfPrefix(e.tree.value, p, last);
      e.(at := p)
  }

  /** The node at `p + [j]` is child `j` of the node at `p`. */
  lemma {:induction false} ChildOfPrefix<S>(t: Node<S>, p: seq<nat>, j: nat)
    requires ValidPath(t, p + [j])
    ensures ValidPath(t, p) && HasChild(At(t, p), j) && At(t, p + [j]) == ChildAt(At(t, p), j)
    decreases |p|
  {
    if p == [] {
      assert ([] + [j])[1..] == [];
    } else {
      assert (p + [j])[1..] == p[1..] + [j];
      ChildOfPrefix(ChildAt(t, p[0]), p[1..], j);
    }
  }

  /** `ResetRoot`: climb the parent links until a node without a parent.  No
      statistic changes; the root ends at the top of its tree. */
  function ResetRoot<S>(e: Mcts<S>): (r: Mcts<S>)
    requires Valid(e)
    ensures Valid(r)
    ensures r.tree == e.tree && r.at == []
    ensures r.(at := e.at) == e
    decreases |e.at|
  {
    if e.tree.None? || e.at == [] then e else ResetRoot(Up(e))
  }

  /** Resetting after any sequence of moves returns to the same top node as
      resetting before them, unless the moves dropped the tree. */
  lemma ResetUndoesMoves<S>(e: Mcts<S>, states: seq<S>)
    requires Valid(e)
    requires MoveRoot(e, states).tree.Some?
    ensures ResetRoot(MoveRoot(e, states)) == ResetRoot(e)
  {
  }

  /** `DropRoot`. */
  function DropRoot<S>(e: Mcts<S>): (r: Mcts<S>)
    ensures Valid(r) && r.tree.None?
    ensures r.(tree := e.tree, at := e.at) == e
  {
    e.(tree := None, at := [])
  }

  // ---------------------------------------------------------------- FindMove

  /** The budget a search runs under, after call-site values override defaults. */
  datatype Budget = Budget(moveTime: Option<real>, playLimit: Option<int>)

  /** The first half of `FindMove(state, moveTime, playLimit)`: resolve the
      budget, create a root for `state` if there is none, and check the two
      assertions (the root is for `state`; some cutoff exists).  The root created
      here stays even when an assertion then fails. */
  function Prime<S(==)>(e: Mcts<S>, s: S, moveTime: Option<real>, playLimit: Option<int>,
                        legalOf: S -> seq<bool>,
                        priorsOf: S -> seq<real>): (r: (Mcts<S>, Result<Budget>))
    requires Valid(e)
    requires |priorsOf(s)| == |legalOf(s)|
    ensures Valid(r.0) && r.0.tree.Some?
    ensures e.tree.Some? ==> r.0 == e
    ensures e.tree.None? ==> RootNode(r.0) == NewNode(s, legalOf(s), priorsOf(s)) && r.0.at == []
    ensures r.0.(tree := e.tree, at := e.at) == e
    ensures RootNode(r.0).state != s ==> r.1 == Err(RootStateMismatch)
    ensures r.1.Ok? <==>
      RootNode(r.0).state == s
      && (moveTime.Some? || e.timeLimit.Some? || playLimit.Some? || e.playLimit.Some?)
    ensures r.1.Ok? ==>
      && r.1.value.moveTime == (if moveTime.Some? then moveTime else e.timeLimit)
      && r.1.value.playLimit == (if playLimit.Some? then playLimit else e.playLimit)
  {
    var time := if moveTime.Some? then moveTime else e.timeLimit;
    var plays := if playLimit.Some? then playLimit else e.playLimit;
    var e' := if e.tree.None? then e.(tree := Some(NewNode(s, legalOf(s), priorsOf(s))), at := [])
              else e;
    var root := At(e'.tree.value, e'.at);
    if root.state != s then (e', Err(RootStateMismatch))
    else if time.None? && plays.None? then (e', Err(NoCutoff))
    else (e', Ok(Budget(time, plays)))
  }

  /** After `DropRoot`, the next search starts from a fresh root for its state. */
  lemma FreshRootAfterDrop<S>(e: Mcts<S>, s: S, moveTime: Option<real>, playLimit: Option<int>,
                                  legalOf: S -> seq<bool>, priorsOf: S -> seq<real>)
    requires |priorsOf(s)| == |legalOf(s)|
    ensures var r := Prime(DropRoot(e), s, moveTime, playLimit, legalOf, priorsOf);
            && RootNode(r.0).plays == 0 && RootNode(r.0).state == s
            && (r.1.Ok? <==>
                  moveTime.Some? || e.timeLimit.Some? || playLimit.Some? || e.playLimit.Some?)
  {
  }

  /** What `FindMove` hands back: the successor state for the chosen action, the
      root's average value, the exploration-free probability vector, and the
      root with the caches those calls wrote. */
  datatype Outcome<S> = Outcome(next: S, action: nat, average: real,
                                probabilities: Option<seq<real>>, root: Node<S>)

  /** `p` is a probability vector over the actions that puts no weight on an
      illegal action. */
  predicate Distribution(p: seq<real>, legal: seq<bool>)
  {
    |p| == |legal| && Sum(p) == 1.0 && forall j :: 0 <= j < |legal| && !legal[j] ==> p[j] == 0.0
  }

  /** `p` is the root's child win rates divided by their total, masked by the
      legal actions. */
  predicate NormalisedRates<S>(root: Node<S>, p: seq<real>)
    requires WellFormed(root) && root.children.Slots?
  {
    var rates := ChildWinRates(root);
    Sum(rates) != 0.0 && |p| == |root.legal| &&
    forall i :: 0 <= i < |root.legal|
        ==> p[i] == (if root.legal[i] then rates[i] / Sum(rates) else 0.0)
  }

  /** `self.Root.ChildProbability()` after the greedy step refreshed the rate
      cache: the child win rates divided by their total and masked by the legal
      actions, a distribution whenever the total is not zero. */
  function FinalProbabilities<S>(root: Node<S>): (p: Option<seq<real>>)
    requires WellFormed(root) && root.children.Slots?
    ensures p.Some? ==> Distribution(p.value, root.legal)
    ensures p.Some? <==> Sum(ChildWinRates(root)) != 0.0
    ensures p.Some? ==> NormalisedRates(root, p.value)
  {
    var rates := ChildWinRates(root);
    var total := Sum(rates);
    if total == 0.0 then None
    else
      var p := seq(|root.legal|, i requires 0 <= i < |root.legal| =>
                     if root.legal[i] then rates[i] / total else 0.0);
      assert forall i :: 0 <= i < |rates| ==> p[i] == rates[i] / total;
      Normalised(rates, p);
      Some(p)
  }

  /** `FinalProbabilities` is what `ChildProbability()` returns with factor 0
      once the greedy step has refreshed the rate cache. */
  lemma FinalProbabilitiesInPlace<S>(root: Node<S>)
    requires WellFormed(root) && root.children.Slots?
    ensures FinalProbabilities(root) == ChildProbability(AfterChildWinRates(root), 0.0)
  {
    var seen := AfterChildWinRates(root);
    RefreshStable(root);
    ZeroFactorScores(seen);
  }

  /** The root as `FindMove` leaves it: the greedy step and `ChildProbability()`
      write only its two caches, which end up holding the child win rates and
      the refreshed play counts. */
  function FinalRoot<S>(root: Node<S>): (r: Node<S>)
    requires WellFormed(root) && root.children.Slots?
    ensures WellFormed(r)
    ensures r.(rateCache := root.rateCache, playCache := root.playCache) == root
    ensures r.rateCache == ChildWinRates(root) && r.playCache == ChildPlays(root)
  {
    root.(rateCache := ChildWinRates(root), playCache := ChildPlays(root))
  }

  /** `FinalRoot` is what the two in-place calls leave behind: `ChildWinRates()`
      in the greedy step, then `ChildProbability()` with factor 0, which writes
      the scores (equal to the win rates at factor 0) and the refreshed counts. */
  lemma FinalRootInPlace<S>(root: Node<S>)
    requires WellFormed(root) && root.children.Slots?
    ensures FinalRoot(root) == AfterChildProbability(AfterChildWinRates(root), 0.0)
  {
    var seen := AfterChildWinRates(root);
    RefreshStable(root);
    ZeroFactorScores(seen);
    assert ChildPlays(seen) == ChildPlays(root);
  }

  /** The second half of `FindMove`, after the search: the greedy action (in its
      corrected form, which never picks an illegal action), the successor state
      through the game's transition, `AvgValue`, and `ChildProbability()`. */
  function Conclude<S>(root: Node<S>, s: S, apply: (S, nat) -> S): (r: Result<Outcome<S>>)
    requires WellFormed(root)
    ensures root.children.Dropped? ==> r == Err(NotExpanded)
    ensures r.Ok? <==> root.children.Slots? && exists j :: 0 <= j < |root.legal| && root.legal[j]
    ensures r.Ok? ==>
      && root.children.Slots?
      && BestLegal(root, r.value.action)
      && r.value.next == apply(s, r.value.action)
    ensures r.Ok? ==> SelectGreedyLegal(root) == Ok(r.value.action)
    ensures r.Ok? ==> IsAverage(r.value.average, root)
    ensures r.Ok? ==> root.children.Slots? && r.value.probabilities == FinalProbabilities(root)
    ensures r.Ok? && r.value.probabilities.Some?
        ==> Distribution(r.value.probabilities.value, root.legal)
    ensures r.Ok? ==>
      && WellFormed(r.value.root)
      && r.value.root.(rateCache := root.rateCache, playCache := root.playCache) == root
    ensures r.Ok? ==> root.children.Slots? && r.value.root == FinalRoot(root)
  {
    match SelectGreedyLegal(root)
    case Err(f) => Err(f)
    case Ok(action) =>
      var average := WinRate(root);
      assert root.plays > 0 ==> average * (root.plays as real) == root.value;
      var probs := FinalProbabilities(root);
      var after := FinalRoot(root);
      assert probs.Some? ==> Distribution(probs.value, root.legal);
      assert WellFormed(after);
      assert after.(rateCache := root.rateCache, playCache := root.playCache) == root;
      Ok(Outcome(apply(s, action), action, average, probs, after))
  }

  // ---------------------------------------------------------- parallel merge

  /** The end of `_runAsynch`: the workers' one-ply trees are merged into the
      root, here with the corrected adoption test, so that a fresh root takes
      over the first worker's children. */
  function MergeWorkers<S>(e: Mcts<S>, workers: seq<Node<S>>): (r: Result<Mcts<S>>)
    requires Valid(e) && e.tree.Some?
    ensures r.Err? ==> r.fault == MisalignedTrees
    ensures r.Ok? ==> Valid(r.value) && r.value.tree.Some? && r.value.(tree := e.tree) == e
    ensures r.Ok? ==>
      Label(RootNode(r.value)) == Label(RootNode(e)).(
        plays := RootNode(e).plays + Merge.SumPlays(workers),
        value := RootNode(e).value + Merge.SumValues(workers))
    ensures r.Ok? && RootNode(e).children == Slots([]) && Merge.Supplying(workers) != [] ==>
      RootNode(r.value).children.Slots? &&
      |RootNode(r.value).children.slots| == |Merge.Supplying(workers)[0].children.slots|
    ensures r.Ok? <==> Merge.MergeWith(RootNode(e), workers, true).Ok?
    ensures r.Ok? ==>
      && RootNode(r.value) == Merge.MergeWith(RootNode(e), workers, true).value
      && FramedOutside(e.tree.value, r.value.tree.value, e.at)
  {
    var root := RootNode(e);
    var m := Merge.MergeWith(root, workers, true);
    if m.Err? then Err(m.fault)
    else
      MergedRootWidth(root, workers);
      Ok(Install(e, m.value))
  }

  /** A fresh root takes the width of the first supplying worker's slots. */
  lemma MergedRootWidth<S>(root: Node<S>, workers: seq<Node<S>>)
    requires Merge.MergeWith(root, workers, true).Ok?
    ensures root.children == Slots([]) && Merge.Supplying(workers) != [] ==>
      var m := Merge.MergeWith(root, workers, true).value;
      m.children.Slots? && |m.children.slots| == |Merge.Supplying(workers)[0].children.slots|
  {
    if root.children == Slots([]) && Merge.Supplying(workers) != [] {
      Merge.AdoptedWidth(root, workers);
    }
  }

  /** Workers grown for the root's state keep the merged root well formed, as
      `Conclude` needs. */
  lemma MergeWorkersKeepsWellFormed<S>(e: Mcts<S>, workers: seq<Node<S>>)
    requires Valid(e) && e.tree.Some? && Compatible(RootNode(e), workers)
    ensures MergeWorkers(e, workers).Ok? ==> WellFormed(RootNode(MergeWorkers(e, workers).value))
  {
    Merge.MergeKeepsWellFormed(RootNode(e), workers, true);
  }

  /** Merging workers grown for the root's state, each expanded over the root's
      legal mask and cut to one ply, never fails. */
  lemma MergeWorkersSucceeds<S>(e: Mcts<S>, workers: seq<Node<S>>)
    requires Valid(e) && e.tree.Some?
    requires WellFormed(RootNode(e)) && Merge.AlignedWorkers(RootNode(e), workers)
    ensures MergeWorkers(e, workers).Ok?
  {
    Merge.WorkersMerge(RootNode(e), workers, true);
  }

  /** `self.Root = ...` on an embedded root: the subtree at the root's path is
      replaced and nothing outside that path changes. */
  function Install<S>(e: Mcts<S>, m: Node<S>): (r: Mcts<S>)
    requires Valid(e) && e.tree.Some?
    ensures Valid(r) && r.tree.Some? && r.at == e.at && RootNode(r) == m
    ensures r.(tree := e.tree) == e
    ensures FramedOutside(e.tree.value, r.tree.value, e.at)
  {
    PutAt(e.tree.value, e.at, m);
    PutFramed(e.tree.value, e.at, m);
    e.(tree := Some(Put(e.tree.value, e.at, m)))
  }

  /** The root is well formed and every worker that still has children is a
      well-formed tree over the same actions, as workers grown from the root's
      state are. */
  predicate Compatible<S>(root: Node<S>, workers: seq<Node<S>>)
  {
    && WellFormed(root)
    && forall j :: 0 <= j < |workers| && workers[j].children.Slots? ==>
         WellFormed(workers[j]) && workers[j].legal == root.legal
  }

  /** `t'` differs from `t` only at and below `p`: outside that subtree the same
      nodes are reachable, every node above `p` keeps its own fields and Children
      state, and every node beside the path from the top to `p` is unchanged,
      subtree included. */
  ghost predicate FramedOutside<S>(t: Node<S>, t': Node<S>, p: seq<nat>)
  {
    && (forall q :: ValidPath(t', q) && !(p <= q) ==> ValidPath(t, q))
    && forall q :: ValidPath(t, q) && !(p <= q) ==>
      && ValidPath(t', q)
      && Label(At(t', q)) == Label(At(t, q))
      && SameFrame(At(t', q), At(t, q))
      && (!(q <= p) ==> At(t', q) == At(t, q))
  }

  /** Replacing the subtree at `p` leaves the tree framed outside `p`. */
  lemma PutFramed<S>(t: Node<S>, p: seq<nat>, m: Node<S>)
    requires ValidPath(t, p)
    ensures FramedOutside(t, Put(t, p, m), p)
  {
    var t' := Put(t, p, m);
    forall q | ValidPath(t, q) && !(p <= q)
      ensures ValidPath(t', q) && Label(At(t', q)) == Label(At(t, q))
          && SameFrame(At(t', q), At(t, q))
      ensures !(q <= p) ==> At(t', q) == At(t, q)
    {
      PutElsewhere(t, p, m, q);
    }
    forall q | ValidPath(t', q) && !(p <= q)
      ensures ValidPath(t, q)
    {
      PutAddsNothingElsewhere(t, p, m, q);
    }
  }
}

=== FILE: merge.dfy ===
/** `MCTS._mergeAll`: pooling the statistics of independently grown worker trees
    into one target tree, level by level. */
module Merge {
  import opened Common
  import opened Tree

  function SumPlays<S>(ts: seq<Node<S>>): nat
  {
    if ts == [] then 0 else ts[0].plays + SumPlays(ts[1..])
  }

  function SumValues<S>(ts: seq<Node<S>>): real
  {
    if ts == [] then 0.0 else ts[0].value + SumValues(ts[1..])
  }

  /** `[t for t in trees if t.Children is not None]`: the trees that still supply
      children at this level, in their original order. */
  function Supplying<S>(ts: seq<Node<S>>): (r: seq<Node<S>>)
    ensures |r| <= |ts|
    ensures forall j :: 0 <= j < |r| ==> r[j].children.Slots? && r[j] in ts
    ensures r == [] <==> forall j :: 0 <= j < |ts| ==> ts[j].children.Dropped?
    ensures KeepsSupplying(ts, r)
  {
    if ts == [] then []
    else
      var rest := Supplying(ts[1..]);
      assert forall x :: x in ts[1..] ==> x in ts;
      if ts[0].children.Slots? then
        KeepsSupplyingGrows(ts[1..], rest, ts[0]);
        [ts[0]] + rest
      else rest
  }

  /** Every tree of `ts` that has a Children list occurs in `r`. */
  ghost predicate KeepsSupplying<S>(ts: seq<Node<S>>, r: seq<Node<S>>)
  {
    ts == [] || ((ts[0].children.Slots? ==> ts[0] in r) && KeepsSupplying(ts[1..], r))
  }

  lemma {:induction false} KeepsSupplyingGrows<S>(ts: seq<Node<S>>, r: seq<Node<S>>, x: Node<S>)
    requires KeepsSupplying(ts, r)
    ensures KeepsSupplying(ts, [x] + r)
  {
    if ts != [] {
      KeepsSupplyingGrows(ts[1..], r, x);
    }
  }

  /** Hence each supplying tree, wherever it sits in `ts`, is in the filtered list. */
  lemma {:induction false} SupplyingKeeps<S>(ts: seq<Node<S>>, j: nat)
    requires j < |ts| && ts[j].children.Slots?
    ensures ts[j] in Supplying(ts)
  {
    if j > 0 {
      SupplyingKeeps(ts[1..], j - 1);
      assert ts[1..][j - 1] == ts[j];
    }
  }

  /** The first tree of the filtered list is the first tree, in list order, that
      still has a Children list. */
  lemma {:induction false} SupplyingHead<S>(ts: seq<Node<S>>, j: nat)
    requires j < |ts| && ts[j].children.Slots?
    requires forall k :: 0 <= k < j ==> ts[k].children.Dropped?
    ensures Supplying(ts) != [] && Supplying(ts)[0] == ts[j]
  {
    if j > 0 {
      SupplyingHead(ts[1..], j - 1);
    }
  }

  /** The filter distributes over concatenation, so with `SupplyingOne` it
      keeps the supplying trees in their order and with their multiplicity. */
  lemma {:induction false} SupplyingAppend<S>(a: seq<Node<S>>, b: seq<Node<S>>)
    ensures Supplying(a + b) == Supplying(a) + Supplying(b)
  {
    if a == [] {
      assert a + b == b;
    } else {
      assert (a + b)[0] == a[0] && (a + b)[1..] == a[1..] + b;
      SupplyingAppend(a[1..], b);
    }
  }

  /** A single tree is kept exactly when its Children is not None. */
  lemma SupplyingOne<S>(x: Node<S>)
    ensures Supplying([x]) == if x.children.Slots? then [x] else []
  {
    assert [x][1..] == [];
  }

  /** `[t.Children[i] for t in trees]`: slot `i` of every tree, which must hold a
      child (a short list raises IndexError, a None entry fails on `.Plays`). */
  function SlotAcross<S>(ts: seq<Node<S>>, i: nat): (r: Result<seq<Node<S>>>)
    ensures r.Ok? <==> forall j :: 0 <= j < |ts| ==> HasChild(ts[j], i)
    ensures r.Err? ==> r.fault == MisalignedTrees
    ensures r.Ok? ==>
      |r.value| == |ts| && forall j :: 0 <= j < |ts| ==> r.value[j] == ChildAt(ts[j], i)
  {
    if ts == [] then Ok([])
    else if !HasChild(ts[0], i) then Err(MisalignedTrees)
    else match SlotAcross(ts[1..], i)
      case Err(f) => Err(f)
      case Ok(rest) => Ok([ChildAt(ts[0], i)] + rest)
  }

  // ------------------------------------------------------- termination measure

  function MaxHeights<S>(ts: seq<Node<S>>): nat
  {
    if ts == [] then 0 else Max(Height(ts[0]), MaxHeights(ts[1..]))
  }

  lemma {:induction false} SupplyingLower<S>(ts: seq<Node<S>>)
    ensures MaxHeights(Supplying(ts)) <= MaxHeights(ts)
  {
    if ts != [] {
      SupplyingLower(ts[1..]);
      if ts[0].children.Slots? {
        assert ([ts[0]] + Supplying(ts[1..]))[1..] == Supplying(ts[1..]);
      }
    }
  }

  lemma {:induction false} KidsLower<S>(ts: seq<Node<S>>, i: nat, m: nat)
    requires SlotAcross(ts, i).Ok?
    requires MaxHeights(ts) <= m && 0 < m
    ensures MaxHeights(SlotAcross(ts, i).value) < m
  {
    if ts != [] {
      KidsLower(ts[1..], i, m);
      ChildBelow(ts[0], i);
      var kids := SlotAcross(ts, i).value;
      assert kids[1..] == SlotAcross(ts[1..], i).value;
    }
  }

  /** Merging slot `i` descends: the backbone child and the remaining trees'
      children at slot `i` are all lower than the level being merged. */
  lemma SlotLower<S>(src: seq<Slot<S>>, rest: seq<Node<S>>, i: nat)
    requires i < |src| && src[i].Child? && SlotAcross(rest, i).Ok?
    ensures Max(Height(src[i].node), MaxHeights(SlotAcross(rest, i).value))
        < Max(SlotsHeight(src), MaxHeights(rest))
  {
    var m := Max(SlotsHeight(src), MaxHeights(rest));
    SlotBelow(src, i);
    KidsLower(rest, i, m);
  }

  // ------------------------------------------------------------------ merge

  /** Whether `target` takes over the children of the first supplying tree.  The
      source tests `target.Children is None` only; the corrected merge also
      treats a never-expanded node, whose Children is the empty list, as
      childless. */
  predicate TakesSlots<S>(target: Node<S>, corrected: bool)
  {
    target.children.Dropped? || (corrected && target.children == Slots([]))
  }

  /** The slots the merged node ends up with: adopted from the first supplying
      tree, or the target's own. */
  function Backbone<S>(target: Node<S>, trees: seq<Node<S>>, corrected: bool): seq<Slot<S>>
    requires Supplying(trees) != []
  {
    if TakesSlots(target, corrected) then Supplying(trees)[0].children.slots
    else target.children.slots
  }

  /** The trees whose slots are merged into the backbone: every supplying tree
      except an adopted one. */
  function Remaining<S>(target: Node<S>, trees: seq<Node<S>>, corrected: bool): seq<Node<S>>
    requires Supplying(trees) != []
  {
    if TakesSlots(target, corrected) then Supplying(trees)[1..] else Supplying(trees)
  }

  /** `out` is what the merge makes of the backbone slot `b` given the same slot
      `kids` of the remaining trees: a child exactly where the backbone has one,
      holding the backbone child's statistics plus those of the kids, and keeping
      the backbone child's subtree when none of the kids supplies children. */
  ghost predicate MergedSlot<S>(b: Slot<S>, kids: Result<seq<Node<S>>>, out: Slot<S>)
  {
    && (out.Child? <==> b.Child?)
    && (b.Child? ==>
          && kids.Ok?
          && Label(out.node) == Label(b.node).(plays := b.node.plays + SumPlays(kids.value),
                                               value := b.node.value + SumValues(kids.value))
          && (Supplying(kids.value) == [] ==> out.node.children == b.node.children))
  }

  /** `_mergeAll(target, trees)` (with `corrected` false).  The plays and values
      of all trees are added to the target; the first supplying tree's children
      are adopted when the target has none; then every child slot of the result
      is merged with the same slot of the remaining supplying trees. */
  function MergeWith<S>(target: Node<S>, trees: seq<Node<S>>, corrected: bool): (r: Result<Node<S>>)
    decreases Max(Height(target), MaxHeights(trees)), 1, 0
    ensures r.Err? ==> r.fault == MisalignedTrees
    ensures Supplying(trees) == [] ==> r.Ok?
    ensures r.Ok? ==> Label(r.value) == Label(target).(plays := target.plays + SumPlays(trees),
                                                       value := target.value + SumValues(trees))
    ensures r.Ok? && Supplying(trees) == [] ==> r.value.children == target.children
    ensures r.Ok? && Supplying(trees) != [] ==>
      var src := Backbone(target, trees, corrected);
      var rest := Remaining(target, trees, corrected);
      && r.value.children.Slots?
      && |r.value.children.slots| == |src|
      && forall i :: 0 <= i < |src|
          ==> MergedSlot(src[i], SlotAcross(rest, i), r.value.children.slots[i])
  {
    var pooled := target.(plays := target.plays + SumPlays(trees),
                          value := target.value + SumValues(trees));
    var sup := Supplying(trees);
    if sup == [] then Ok(pooled)
    else
      var src := Backbone(target, trees, corrected);
      var rest := Remaining(target, trees, corrected);
      SupplyingLower(trees);
      assert MaxHeights(rest) <= MaxHeights(sup);
      assert SlotsHeight(src) <= Max(Height(target), MaxHeights(trees));
      match MergeSlots(src, rest, 0, corrected)
      case Err(f) => Err(f)
      case Ok(slots) => Ok(pooled.(children := Slots(slots)))
  }

  /** The merged slots `i..` of `src` against the remaining trees: the loop
      `for i in range(len(target.Children))`. */
  function MergeSlots<S>(src: seq<Slot<S>>, rest: seq<Node<S>>, i: nat,
                         corrected: bool): (r: Result<seq<Slot<S>>>)
    requires i <= |src|
    decreases Max(SlotsHeight(src), MaxHeights(rest)), 0, |src| - i
    ensures r.Err? ==> r.fault == MisalignedTrees
    ensures r.Ok? ==> |r.value| == |src| - i
    ensures r.Ok? ==>
      forall k :: i <= k < |src| ==> MergedSlot(src[k], SlotAcross(rest, k), r.value[k - i])
  {
    if i == |src| then Ok([])
    else
      match MergeOne(src, rest, i, corrected)
      case Err(f) => Err(f)
      case Ok(head) =>
        match MergeSlots(src, rest, i + 1, corrected)
        case Err(f) => Err(f)
        case Ok(tail) =>
          ConsSlot(src, rest, i, head, tail);
          Ok([head] + tail)
  }

  /** One iteration of that loop: an empty slot is skipped, a child is merged
      with slot `i` of every remaining tree. */
  function MergeOne<S>(src: seq<Slot<S>>, rest: seq<Node<S>>, i: nat,
                       corrected: bool): (r: Result<Slot<S>>)
    requires i < |src|
    decreases Max(SlotsHeight(src), MaxHeights(rest)), 0, 0
    ensures r.Err? ==> r.fault == MisalignedTrees
    ensures src[i].Empty? ==> r.Ok?
    ensures r.Ok? ==> MergedSlot(src[i], SlotAcross(rest, i), r.value)
  {
    match src[i]
    case Empty => Ok(Empty)
    case Child(c) =>
      match SlotAcross(rest, i)
      case Err(f) => Err(f)
      case Ok(kids) =>
        SlotLower(src, rest, i);
        match MergeWith(c, kids, corrected)
        case Err(f) => Err(f)
        case Ok(merged) => Ok(Child(merged))
  }

  /** Prepending the merged slot `i` to the merged slots `i+1..`. */
  lemma ConsSlot<S>(src: seq<Slot<S>>, rest: seq<Node<S>>, i: nat, head: Slot<S>,
                    tail: seq<Slot<S>>)
    requires i < |src| && |tail| == |src| - i - 1
    requires MergedSlot(src[i], SlotAcross(rest, i), head)
    requires forall k :: i + 1 <= k < |src| ==>
               MergedSlot(src[k], SlotAcross(rest, k), tail[k - i - 1])
    ensures forall k :: i <= k < |src| ==>
              MergedSlot(src[k], SlotAcross(rest, k), ([head] + tail)[k - i])
  {
  }


  /** `_mergeAll` exactly as written. */
  function MergeAll<S>(target: Node<S>, trees: seq<Node<S>>): (r: Result<Node<S>>)
    ensures r == MergeWith(target, trees, false)
    ensures r.Ok? ==>
      && r.value.plays == target.plays + SumPlays(trees)
      && r.value.value == target.value + SumValues(trees)
  {
    MergeWith(target, trees, false)
  }

  // ------------------------------------------------------------- success

  /** Every remaining tree has a child at each occupied backbone slot, and that
      child has no Children list, so the merge needs only this one level. */
  ghost predicate Covers<S>(src: seq<Slot<S>>, rest: seq<Node<S>>)
  {
    forall i, k :: 0 <= i < |src| && src[i].Child? && 0 <= k < |rest| ==>
      HasChild(rest[k], i) && ChildAt(rest[k], i).children.Dropped?
  }

  /** A tree as `_runMCTS` returns it to the merge: expanded over `legal` and
      truncated to one ply. */
  ghost predicate OnePlyWorker<S>(w: Node<S>, legal: seq<bool>)
  {
    && Expanded(w)
    && w.legal == legal
    && forall i :: 0 <= i < |w.children.slots| && w.children.slots[i].Child? ==>
         w.children.slots[i].node.children.Dropped?
  }

  /** Every tree that still has children is a one-ply worker over the target's
      legal mask. */
  ghost predicate AlignedWorkers<S>(target: Node<S>, trees: seq<Node<S>>)
  {
    forall j :: 0 <= j < |trees| && trees[j].children.Slots?
        ==> OnePlyWorker(trees[j], target.legal)
  }

  lemma CoveredSlotMerges<S>(src: seq<Slot<S>>, rest: seq<Node<S>>, i: nat, corrected: bool)
    requires i < |src| && Covers(src, rest)
    ensures MergeOne(src, rest, i, corrected).Ok?
  {
    if src[i].Child? {
      var kids := SlotAcross(rest, i).value;
      assert forall j :: 0 <= j < |kids| ==> kids[j].children.Dropped?;
      assert Supplying(kids) == [];
    }
  }

  lemma {:induction false} CoveredSlotsMerge<S>(src: seq<Slot<S>>, rest: seq<Node<S>>, i: nat,
                                                corrected: bool)
    requires i <= |src| && Covers(src, rest)
    ensures MergeSlots(src, rest, i, corrected).Ok?
    decreases |src| - i
  {
    if i < |src| {
      CoveredSlotMerges(src, rest, i, corrected);
      CoveredSlotsMerge(src, rest, i + 1, corrected);
    }
  }

  /** `_mergeAll` raises only at line 138, for a tree missing an occupied
      backbone slot: when the remaining trees cover the backbone one level
      deep, the merge succeeds. */
  lemma CoveredMergeSucceeds<S>(target: Node<S>, trees: seq<Node<S>>, corrected: bool)
    requires Supplying(trees) != []
        ==> Covers(Backbone(target, trees, corrected), Remaining(target, trees, corrected))
    ensures MergeWith(target, trees, corrected).Ok?
  {
    if Supplying(trees) != [] {
      CoveredSlotsMerge(Backbone(target, trees, corrected), Remaining(target, trees, corrected), 0,
                        corrected);
    }
  }

  /** One-ply workers over the target's mask cover the backbone, whether it is
      adopted from the first worker or is the well-formed target's own. */
  lemma WorkersCover<S>(target: Node<S>, trees: seq<Node<S>>, corrected: bool)
    requires Supplying(trees) != [] && AlignedWorkers(target, trees)
    requires WellFormed(target) || TakesSlots(target, corrected)
    ensures Covers(Backbone(target, trees, corrected), Remaining(target, trees, corrected))
  {
    var sup := Supplying(trees);
    var src := Backbone(target, trees, corrected);
    var rest := Remaining(target, trees, corrected);
    forall k | 0 <= k < |sup|
      ensures OnePlyWorker(sup[k], target.legal)
    {
      var j :| 0 <= j < |trees| && trees[j] == sup[k];
    }
    forall i, k | 0 <= i < |src| && src[i].Child? && 0 <= k < |rest|
      ensures HasChild(rest[k], i) && ChildAt(rest[k], i).children.Dropped?
    {
      if TakesSlots(target, corrected) {
        assert OnePlyWorker(sup[0], target.legal);
        assert rest[k] == sup[k + 1];
      } else {
        assert HasChild(target, i);
        assert rest[k] == sup[k];
      }
    }
  }

  /** Hence merging one-ply workers over the target's mask always succeeds. */
  lemma WorkersMerge<S>(target: Node<S>, trees: seq<Node<S>>, corrected: bool)
    requires AlignedWorkers(target, trees)
    requires WellFormed(target) || TakesSlots(target, corrected)
    ensures MergeWith(target, trees, corrected).Ok?
  {
    if Supplying(trees) != [] {
      WorkersCover(target, trees, corrected);
    }
    CoveredMergeSucceeds(target, trees, corrected);
  }

  // ------------------------------------------------------------- properties

  /** The merge keeps the node invariant: children sit only at legal actions,
      whether the slots are the target's own or adopted from a worker grown for
      the same state. */
  lemma MergeKeepsWellFormed<S>(target: Node<S>, trees: seq<Node<S>>, corrected: bool)
    requires WellFormed(target)
    requires forall j :: 0 <= j < |trees| && trees[j].children.Slots? ==>
      WellFormed(trees[j]) && trees[j].legal == target.legal
    ensures MergeWith(target, trees, corrected).Ok?
        ==> WellFormed(MergeWith(target, trees, corrected).value)
  {
    var r := MergeWith(target, trees, corrected);
    if r.Ok? && Supplying(trees) != [] {
      var m := r.value;
      var src := Backbone(target, trees, corrected);
      var rest := Remaining(target, trees, corrected);
      assert Label(m).legal == target.legal;
      if TakesSlots(target, corrected) {
        var w := Supplying(trees)[0];
        var j :| 0 <= j < |trees| && trees[j] == w;
        assert WellFormed(w) && w.legal == target.legal;
        assert src == w.children.slots;
        forall i | 0 <= i < SlotCount(m) && HasChild(m, i)
          ensures m.legal[i]
        {
          assert MergedSlot(src[i], SlotAcross(rest, i), m.children.slots[i]);
          assert HasChild(w, i);
        }
      } else {
        forall i | 0 <= i < SlotCount(m) && HasChild(m, i)
          ensures m.legal[i]
        {
          assert MergedSlot(src[i], SlotAcross(rest, i), m.children.slots[i]);
          assert HasChild(target, i);
        }
      }
    }
  }

  /** Two unexpanded worker trees with plays 3 and 5 and values 1.0 and 2.0,
      merged into a zeroed target, give 8 plays and value 3.0. */
  lemma MergeExample()
    ensures var target := NewNode(0, [true], [1.0]);
            var t1 := target.(plays := 3, value := 1.0);
            var t2 := target.(plays := 5, value := 2.0);
            var r := MergeAll(target, [t1, t2]);
            r.Ok? && r.value.plays == 8 && r.value.value == 3.0
  {
    var target := NewNode(0, [true], [1.0]);
    var t1 := target.(plays := 3, value := 1.0);
    var t2 := target.(plays := 5, value := 2.0);
    assert [t1, t2][1..] == [t2];
    assert [t2][1..] == [];
    assert SumPlays([t2]) == 5 && SumValues([t2]) == 2.0;
    assert SumPlays([t1, t2]) == 8;
    assert SumValues([t1, t2]) == 3.0;
    assert Backbone(target, [t1, t2], false) == [];
    assert MergeSlots([], Remaining(target, [t1, t2], false), 0, false) == Ok([]);
  }

  /** The backbone property: with the first of two expanded workers adopted, and
      the second worker truncated to one ply, every child of the result has the
      first worker's subtree below it and the summed statistics of both. */
  lemma {:induction false} FirstWorkerIsBackbone<S>(target: Node<S>, w1: Node<S>, w2: Node<S>,
                                                    corrected: bool, i: nat)
    requires target.children.Dropped?
    requires Expanded(w1) && OnePlyWorker(w2, w1.legal)
    requires HasChild(w1, i)
    ensures MergeWith(target, [w1, w2], corrected).Ok?
    ensures var r := MergeWith(target, [w1, w2], corrected).value;
            && HasChild(r, i) && HasChild(w2, i)
            && ChildAt(r, i).children == ChildAt(w1, i).children
            && ChildAt(r, i).plays == ChildAt(w1, i).plays + ChildAt(w2, i).plays
            && ChildAt(r, i).value == ChildAt(w1, i).value + ChildAt(w2, i).value
  {
    assert [w1, w2][1..] == [w2];
    assert Supplying([w2]) == [w2];
    assert Supplying([w1, w2]) == [w1, w2];
    assert Remaining(target, [w1, w2], corrected) == [w2];
    assert Backbone(target, [w1, w2], corrected) == w1.children.slots;
    forall j, k | 0 <= j < |w1.children.slots| && w1.children.slots[j].Child? && 0 <= k < |[w2]|
      ensures HasChild([w2][k], j) && ChildAt([w2][k], j).children.Dropped?
    {
      assert w1.legal[j];
    }
    CoveredMergeSucceeds(target, [w1, w2], corrected);
    var r := MergeWith(target, [w1, w2], corrected).value;
    var kids := SlotAcross([w2], i).value;
    assert kids == [ChildAt(w2, i)];
    assert kids[1..] == [];
    assert Supplying(kids[1..]) == [];
    assert Supplying(kids) == [];
    assert SumPlays(kids) == ChildAt(w2, i).plays;
    assert SumValues(kids) == ChildAt(w2, i).value;
  }

  /** As written, a fresh target (Children is the empty list, not None) never
      adopts anything: whatever the workers grew, the merged node has no slots. */
  lemma FreshTargetStaysEmpty<S>(target: Node<S>, trees: seq<Node<S>>)
    requires target.children == Slots([])
    ensures MergeAll(target, trees).Ok?
    ensures MergeAll(target, trees).value.children == Slots([])
  {
    var sup := Supplying(trees);
    if sup != [] {
      assert Backbone(target, trees, false) == [];
      assert MergeSlots([], Remaining(target, trees, false), 0, false) == Ok([]);
    }
  }

  /** A successful corrected merge into a fresh target has as many slots as
      the first supplying tree. */
  lemma AdoptedWidth<S>(target: Node<S>, trees: seq<Node<S>>)
    requires target.children == Slots([])
    requires Supplying(trees) != []
    ensures MergeWith(target, trees, true).Ok? ==>
      && MergeWith(target, trees, true).value.children.Slots?
      && |MergeWith(target, trees, true).value.children.slots|
         == |Supplying(trees)[0].children.slots|
  {
    assert Backbone(target, trees, true) == Supplying(trees)[0].children.slots;
  }

  /** With the correction, merging one-ply workers into a fresh target succeeds,
      and the result has as many slots as the first supplying worker. */
  lemma FreshTargetWidth<S>(target: Node<S>, trees: seq<Node<S>>)
    requires target.children == Slots([])
    requires Supplying(trees) != [] && AlignedWorkers(target, trees)
    ensures MergeWith(target, trees, true).Ok?
    ensures MergeWith(target, trees, true).value.children.Slots?
    ensures |MergeWith(target, trees, true).value.children.slots|
        == |Supplying(trees)[0].children.slots|
  {
    WorkersMerge(target, trees, true);
    AdoptedWidth(target, trees);
  }

  /** With the correction, a fresh target takes over the first supplying worker's
      slots, so the merged root carries the workers' one-ply statistics. */
  lemma FreshTargetAdopts<S>(target: Node<S>, trees: seq<Node<S>>, i: nat)
    requires target.children == Slots([])
    requires Supplying(trees) != [] && AlignedWorkers(target, trees)
    requires HasChild(Supplying(trees)[0], i)
    ensures MergeWith(target, trees, true).Ok?
    ensures var r := MergeWith(target, trees, true).value;
            HasChild(r, i) && ChildAt(r, i).state == ChildAt(Supplying(trees)[0], i).state
            && ChildAt(r, i).plays >= ChildAt(Supplying(trees)[0], i).plays
  {
    WorkersMerge(target, trees, true);
  }
}

=== FILE: search.dfy ===
/** The tree-growing half of the search loop in src/mcts.py: expansion
    (`AddChildren`), value backup (`BackProp`) and the play-budget loop of
    `_runMCTS` with its one-ply truncation.  The simulation episode itself
    (`RunSimulation`) is a parameter. */
module Search {
  import opened Common
  import opened Tree

  /** `MCTS.AddChildren`: a fresh Children list with one slot per action, and at
      every legal action a new node built from the successor state. */
  function AddChildren<S>(n: Node<S>, legalOf: S -> seq<bool>, priorsOf: S -> seq<real>,
                          apply: (S, nat) -> S): (r: Node<S>)
    requires forall i :: 0 <= i < |n.legal| && n.legal[i] ==>
      |priorsOf(apply(n.state, i))| == |legalOf(apply(n.state, i))|
    ensures Expanded(r)
    ensures Label(r) == Label(n)
    ensures forall i :: 0 <= i < |n.legal| && n.legal[i] ==>
      var s := apply(n.state, i);
      ChildAt(r, i) == NewNode(s, legalOf(s), priorsOf(s))
    ensures WellFormed(n) ==> WellFormed(r)
  {
    var slots := seq(|n.legal|, i requires 0 <= i < |n.legal| =>
      if n.legal[i] then
        var s := apply(n.state, i);
        Child(NewNode(s, legalOf(s), priorsOf(s)))
      else Empty);
    n.(children := Slots(slots))
  }

  /** What BackProp adds to the value of the node at `q` for a leaf at `leaf`:
      nothing off the path and nothing at the top of the tree; on the path, `v`
      when the parent's player to move is `pv` and `1 - v` otherwise. */
  function Gain<S>(t: Node<S>, leaf: seq<nat>, q: seq<nat>, v: real, pv: int,
                   player: S -> int): real
    requires ValidPath(t, leaf)
  {
    if |q| > 0 && q <= leaf then
      PrefixValid(t, leaf, |q| - 1);
      if player(At(t, leaf[..|q| - 1]).state) == pv then v else 1.0 - v
    else 0.0
  }

  /** The tree after BackProp has handled the path nodes at depth `k` and below:
      those gained their play and value, everything else is as in `t`, and every
      node keeps its Children state. */
  ghost predicate BackedUpFrom<S>(t: Node<S>, r: Node<S>, leaf: seq<nat>, k: nat, v: real, pv: int,
                                  player: S -> int)
    requires ValidPath(t, leaf)
  {
    forall q :: NodeBackedUpFrom(t, r, leaf, k, v, pv, player, q)
  }

  /** The node at `q` after BackProp has handled depth `k` and below: reachable
      exactly when it was, with its Children state, and with its play and value
      added when it is on the path at depth `k` or more. */
  ghost predicate NodeBackedUpFrom<S>(t: Node<S>, r: Node<S>, leaf: seq<nat>, k: nat, v: real,
                                      pv: int, player: S -> int, q: seq<nat>)
    requires ValidPath(t, leaf)
  {
    && (ValidPath(r, q) <==> ValidPath(t, q))
    && (ValidPath(t, q) ==>
          && SameFrame(At(r, q), At(t, q))
          && Label(At(r, q)) == Label(At(t, q)).(
               plays := At(t, q).plays + (if q <= leaf && |q| >= k then 1 else 0),
               value := At(t, q).value + (if |q| >= k then Gain(t, leaf, q, v, pv, player)
                                          else 0.0)))
  }

  /** One iteration of the climb, seen from one node `q`: bumping the path node
      at depth `k` keeps `q` reachable exactly when it was, and gives `q` its
      play and value when it is that node.  The facts about `q` before the bump
      are passed in, so that no quantifier is in scope. */
  lemma BackPropStep<S>(t: Node<S>, r: Node<S>, leaf: seq<nat>, k: nat, gain: real, v: real,
                        pv: int, player: S -> int, q: seq<nat>)
    requires ValidPath(t, leaf) && k <= |leaf|
    requires ValidPath(r, leaf[..k])
    requires NodeBackedUpFrom(t, r, leaf, k + 1, v, pv, player, q)
    requires gain == Gain(t, leaf, leaf[..k], v, pv, player)
    ensures NodeBackedUpFrom(t, Bump(r, leaf[..k], 1, gain), leaf, k, v, pv, player, q)
  {
    var here := leaf[..k];
    BumpAt(r, here, 1, gain, q);
    if ValidPath(t, q) && q != here && |q| == k && q <= leaf {
      PrefixSlice(q, leaf);
    }
  }

  /** A prefix of `p` is the slice of `p` of its own length. */
  lemma PrefixSlice(q: seq<nat>, p: seq<nat>)
    requires q <= p
    ensures q == p[..|q|]
  {
  }

  /** One iteration of the climb, for the whole tree. */
  lemma BackPropClimb<S>(t: Node<S>, r: Node<S>, leaf: seq<nat>, k: nat, gain: real, v: real,
                         pv: int, player: S -> int)
    requires ValidPath(t, leaf) && k <= |leaf|
    requires BackedUpFrom(t, r, leaf, k + 1, v, pv, player)
    requires gain == Gain(t, leaf, leaf[..k], v, pv, player)
    ensures ValidPath(r, leaf[..k])
        && BackedUpFrom(t, Bump(r, leaf[..k], 1, gain), leaf, k, v, pv, player)
  {
    PrefixValid(t, leaf, k);
    assert NodeBackedUpFrom(t, r, leaf, k + 1, v, pv, player, leaf[..k]);
    forall q {
      BackPropStep(t, r, leaf, k, gain, v, pv, player, q);
    }
  }

  /** The tree after the climb has handled the path nodes at depth `k` and
      below: the bumps of `BackProp`, applied from the leaf upwards. */
  ghost function Climbed<S>(t: Node<S>, leaf: seq<nat>, k: nat, v: real, pv: int,
                            player: S -> int): Node<S>
    requires ValidPath(t, leaf) && k <= |leaf| + 1
    decreases |leaf| + 1 - k, 0
  {
    if k == |leaf| + 1 then t
    else
      var below := Climbed(t, leaf, k + 1, v, pv, player);
      ClimbedBackedUp(t, leaf, k + 1, v, pv, player);
      PrefixValid(t, leaf, k);
      assert NodeBackedUpFrom(t, below, leaf, k + 1, v, pv, player, leaf[..k]);
      Bump(below, leaf[..k], 1, Gain(t, leaf, leaf[..k], v, pv, player))
  }

  /** The climbed tree is backed up from depth `k`. */
  lemma ClimbedBackedUp<S>(t: Node<S>, leaf: seq<nat>, k: nat, v: real, pv: int, player: S -> int)
    requires ValidPath(t, leaf) && k <= |leaf| + 1
    ensures BackedUpFrom(t, Climbed(t, leaf, k, v, pv, player), leaf, k, v, pv, player)
    decreases |leaf| + 1 - k, 1
  {
    if k <= |leaf| {
      ClimbedBackedUp(t, leaf, k + 1, v, pv, player);
      BackPropClimb(t, Climbed(t, leaf, k + 1, v, pv, player), leaf, k,
                    Gain(t, leaf, leaf[..k], v, pv, player), v, pv, player);
    }
  }

  /** What one iteration of `BackProp` needs: the node to bump and its parent
      are reachable, and the parent, not yet bumped, still holds the state whose
      player decides the gain. */
  lemma ClimbStep<S>(t: Node<S>, leaf: seq<nat>, k: nat, v: real, pv: int, player: S -> int)
    requires ValidPath(t, leaf) && k <= |leaf|
    ensures ValidPath(Climbed(t, leaf, k + 1, v, pv, player), leaf[..k])
    ensures k > 0 ==>
      && ValidPath(Climbed(t, leaf, k + 1, v, pv, player), leaf[..k - 1])
      && Gain(t, leaf, leaf[..k], v, pv, player) ==
           var parent := At(Climbed(t, leaf, k + 1, v, pv, player), leaf[..k - 1]);
           if player(parent.state) == pv then v else 1.0 - v
    ensures Climbed(t, leaf, k, v, pv, player) ==
      Bump(Climbed(t, leaf, k + 1, v, pv, player), leaf[..k], 1,
           Gain(t, leaf, leaf[..k], v, pv, player))
  {
    var r := Climbed(t, leaf, k + 1, v, pv, player);
    ClimbedBackedUp(t, leaf, k + 1, v, pv, player);
    PrefixValid(t, leaf, k);
    assert NodeBackedUpFrom(t, r, leaf, k + 1, v, pv, player, leaf[..k]);
    if k > 0 {
      PrefixValid(t, leaf, k - 1);
      assert NodeBackedUpFrom(t, r, leaf, k + 1, v, pv, player, leaf[..k - 1]);
      assert leaf[..k][..k - 1] == leaf[..k - 1];
      assert At(r, leaf[..k - 1]).state == At(t, leaf[..k - 1]).state;
    }
  }

  /** `r` is `t` after backing up `v` for player `pv` from `leaf`: the same
      shape, with every node keeping its Children state; every node on the path
      from the leaf to the top gains one play; every one of them below the top
      gains `v` when its parent's player to move is `pv` and `1 - v` otherwise;
      every other node keeps its statistics.  This is the climb with every depth
      handled. */
  ghost predicate BackedUp<S>(t: Node<S>, r: Node<S>, leaf: seq<nat>, v: real, pv: int,
                              player: S -> int)
    requires ValidPath(t, leaf)
  {
    BackedUpFrom(t, r, leaf, 0, v, pv, player)
  }

  /** Once the top has been handled, every node of the path has its update. */
  lemma ClimbedAll<S>(t: Node<S>, leaf: seq<nat>, v: real, pv: int, player: S -> int)
    requires ValidPath(t, leaf)
    ensures BackedUp(t, Climbed(t, leaf, 0, v, pv, player), leaf, v, pv, player)
    ensures Climbed(t, leaf, 0, v, pv, player).plays == t.plays + 1
    ensures Climbed(t, leaf, 0, v, pv, player).value == t.value
  {
    var r := Climbed(t, leaf, 0, v, pv, player);
    ClimbedBackedUp(t, leaf, 0, v, pv, player);
    assert ValidPath(t, []);
    assert NodeBackedUpFrom(t, r, leaf, 0, v, pv, player, []);
    assert At(r, []) == r && At(t, []) == t;
  }

  /** `MCTS.BackProp(leaf, v, pv)`, walking from the leaf up the parent links.
      Every node on the path gains one play, every node on it below the top gains
      the perspective-dependent value, and every other node keeps its statistics. */
  method BackProp<S>(t: Node<S>, leaf: seq<nat>, v: real, pv: int,
                     player: S -> int) returns (r: Node<S>)
    requires ValidPath(t, leaf)
    ensures BackedUp(t, r, leaf, v, pv, player)
    ensures r.plays == t.plays + 1 && r.value == t.value
  {
    r := t;
    var k := |leaf| + 1;
    while k > 0
      invariant 0 <= k <= |leaf| + 1
      invariant r == Climbed(t, leaf, k, v, pv, player)
    {
      k := k - 1;
      ClimbStep(t, leaf, k, v, pv, player);
      var gain := 0.0;
      if k > 0 {
        gain := if player(At(r, leaf[..k - 1]).state) == pv then v else 1.0 - v;
      }
      r := Bump(r, leaf[..k], 1, gain);
    }
    ClimbedAll(t, leaf, v, pv, player);
  }

  /** The child kept by `_runMCTS`'s clean-up: the node without its subtree. */
  function Cut<S>(x: Slot<S>): Slot<S>
  {
    match x
    case Empty => Empty
    case Child(c) => Child(c.(children := Dropped))
  }

  /** The loop at the end of `_runMCTS`: every child of the root loses its
      Children, so only one ply of statistics is handed back.  Iterating over a
      root whose Children is None raises. */
  function Truncate<S>(root: Node<S>): (r: Result<Node<S>>)
    ensures r.Ok? <==> root.children.Slots?
    ensures r.Err? ==> r.fault == NotIterable
    ensures r.Ok? ==> r.value.children.Slots?
    ensures r.Ok? ==> Label(r.value) == Label(root) && SlotCount(r.value) == SlotCount(root)
    ensures r.Ok? ==>
      forall i :: 0 <= i < SlotCount(root) ==> (HasChild(r.value, i) <==> HasChild(root, i))
    ensures r.Ok? ==> forall i: nat :: HasChild(root, i) ==>
      Label(ChildAt(r.value, i)) == Label(ChildAt(root, i))
          && ChildAt(r.value, i).children == Dropped
  {
    match root.children
    case Dropped => Err(NotIterable)
    case Slots(s) => Ok(root.(children := Slots(seq(|s|, i requires 0 <= i < |s| => Cut(s[i])))))
  }

  lemma {:induction false} CutSlotsLow<S>(s: seq<Slot<S>>)
    requires forall i :: 0 <= i < |s| && s[i].Child? ==> s[i].node.children == Dropped
    ensures SlotsHeight(s) <= 1
  {
    if s != [] {
      CutSlotsLow(s[1..]);
      if s[0].Child? {
        assert Height(s[0].node) == 0;
      }
    }
  }

  /** A truncated tree is at most one ply deep. */
  lemma TruncatedIsOnePly<S>(root: Node<S>)
    requires Truncate(root).Ok?
    ensures Height(Truncate(root).value) <= 1
  {
    var r := Truncate(root).value;
    var s := r.children.slots;
    forall i | 0 <= i < |s| && s[i].Child?
      ensures s[i].node.children == Dropped
    {
      assert HasChild(root, i);
    }
    CutSlotsLow(s);
  }

  /** Truncation is idempotent. */
  lemma TruncateIdempotent<S>(root: Node<S>)
    requires Truncate(root).Ok?
    ensures Truncate(Truncate(root).value) == Truncate(root)
  {
    var r := Truncate(root).value;
    var s := r.children.slots;
    assert Truncate(r).value.children.slots == s;
  }

  /** The tree after `k` search episodes from `root`. */
  function Simulated<S>(simulate: Node<S> -> Node<S>, root: Node<S>, k: nat): Node<S>
  {
    if k == 0 then root else simulate(Simulated(simulate, root, k - 1))
  }

  /** Each episode adds one play at the root, so `k` episodes add `k`. */
  lemma {:induction false} SimulatedPlays<S>(simulate: Node<S> -> Node<S>, root: Node<S>, k: nat)
    requires forall m :: simulate(m).plays == m.plays + 1
    ensures Simulated(simulate, root, k).plays == root.plays + k
  {
    if k > 0 {
      SimulatedPlays(simulate, root, k - 1);
    }
  }

  /** `_runMCTS` with a play budget: simulate until the root holds `nPlays` plays,
      then truncate.  Each episode backs up through the root, adding one play. */
  method RunMCTS<S>(root: Node<S>, nPlays: int,
                    simulate: Node<S> -> Node<S>) returns (r: Result<Node<S>>)
    requires forall m :: simulate(m).plays == m.plays + 1
    ensures root.plays >= nPlays ==> r == Truncate(root)
    ensures r.Ok? ==> r.value.plays == (if root.plays >= nPlays then root.plays else nPlays)
    ensures r.Ok? ==> Height(r.value) <= 1
    ensures r == Truncate(Simulated(simulate, root,
                                    if root.plays >= nPlays then 0 else nPlays - root.plays))
  {
    var cur := root;
    while cur.plays < nPlays
      invariant root.plays >= nPlays ==> cur == root
      invariant root.plays <= cur.plays <= (if root.plays >= nPlays then root.plays else nPlays)
      invariant cur == Simulated(simulate, root, cur.plays - root.plays)
      decreases nPlays - cur.plays
    {
      cur := simulate(cur);
    }
    r := Truncate(cur);
    if r.Ok? {
      TruncatedIsOnePly(cur);
    }
  }
}

=== FILE: selection.dfy ===
/** Child statistics and the two ways src/mcts.py chooses a child: the exploring
    probability vector of `Node.ChildProbability` and the greedy final choice of
    `MCTS._selectAction(root, False)`. */
module Selection {
  import opened Common
  import opened Tree

  /** `Node.ChildWinRates`: the rate cache with every occupied slot refreshed from
      its child; a slot without a child keeps whatever the cache held.  The loop
      takes `len(self.Children)`, which raises when Children is None, so this and
      everything built on it needs a Children list. */
  function ChildWinRates<S>(n: Node<S>): (r: seq<real>)
    requires WellFormed(n) && n.children.Slots?
    ensures |r| == |n.legal|
    ensures forall i :: 0 <= i < |n.legal| && HasChild(n, i) ==> r[i] == WinRate(ChildAt(n, i))
    ensures forall i :: 0 <= i < |n.legal| && !HasChild(n, i) ==> r[i] == n.rateCache[i]
  {
    seq(|n.legal|, i requires 0 <= i < |n.legal| =>
      if HasChild(n, i) then WinRate(ChildAt(n, i)) else n.rateCache[i])
  }

  /** `Node.ChildPlays`, likewise over the play cache. */
  function ChildPlays<S>(n: Node<S>): (r: seq<real>)
    requires WellFormed(n) && n.children.Slots?
    ensures |r| == |n.legal|
    ensures forall i :: 0 <= i < |n.legal| ==> r[i] >= 0.0
    ensures forall i :: 0 <= i < |n.legal| && HasChild(n, i) ==> r[i] == ChildAt(n, i).plays as real
    ensures forall i :: 0 <= i < |n.legal| && !HasChild(n, i) ==> r[i] == n.playCache[i]
  {
    seq(|n.legal|, i requires 0 <= i < |n.legal| =>
      if HasChild(n, i) then ChildAt(n, i).plays as real else n.playCache[i])
  }

  /** The exploration term of an action's score: factor times prior times the
      node's plays, over one plus the action's visit count. */
  function Bonus(f: real, prior: real, plays: nat, visits: real): real
    requires visits >= 0.0
  {
    f * prior * (plays as real) / (1.0 + visits)
  }

  /** The vector `rates` after the in-place `+=` of ChildProbability: win rate
      plus the prior-weighted exploration bonus. */
  function Scores<S>(n: Node<S>, f: real): (r: seq<real>)
    requires WellFormed(n) && n.children.Slots?
    ensures |r| == |n.legal|
    ensures forall i :: 0 <= i < |n.legal| && HasChild(n, i) ==>
      r[i] == WinRate(ChildAt(n, i)) + Bonus(f, n.priors[i], n.plays, ChildAt(n, i).plays as real)
    ensures forall i :: 0 <= i < |n.legal| && !HasChild(n, i) ==>
      r[i] == n.rateCache[i] + Bonus(f, n.priors[i], n.plays, n.playCache[i])
  {
    var rates := ChildWinRates(n);
    var visits := ChildPlays(n);
    seq(|n.legal|, i requires 0 <= i < |n.legal| =>
      rates[i] + Bonus(f, n.priors[i], n.plays, visits[i]))
  }

  /** `Node.ChildProbability(f)`: the scores divided by their total, then masked
      by the legal actions.  `None` stands for the all-NaN vector numpy produces
      when the total is zero. */
  function ChildProbability<S>(n: Node<S>, f: real): (r: Option<seq<real>>)
    requires WellFormed(n) && n.children.Slots?
    ensures r.Some? <==> Sum(Scores(n, f)) != 0.0
    ensures r.Some? ==> |r.value| == |n.legal|
    ensures r.Some? ==> forall i :: 0 <= i < |n.legal| && !n.legal[i] ==> r.value[i] == 0.0
    ensures r.Some? ==>
      forall i :: 0 <= i < |n.legal| ==> r.value[i] == Scores(n, f)[i] / Sum(Scores(n, f))
  {
    IllegalScoresZero(n, f);
    var scores := Scores(n, f);
    var total := Sum(scores);
    if total == 0.0 then None
    else Some(seq(|n.legal|, i requires 0 <= i < |n.legal| =>
                    if n.legal[i] then scores[i] / total else 0.0))
  }

  /** The node as ChildProbability leaves it: `rates` is the rate cache itself, so
      the cache now holds the scores, and the play cache holds refreshed counts. */
  function AfterChildProbability<S>(n: Node<S>, f: real): (r: Node<S>)
    requires WellFormed(n) && n.children.Slots?
    ensures WellFormed(r)
    ensures r.(rateCache := n.rateCache, playCache := n.playCache) == n
    ensures r.rateCache == Scores(n, f) && r.playCache == ChildPlays(n)
  {
    n.(rateCache := Scores(n, f), playCache := ChildPlays(n))
  }

  /** The node as ChildWinRates leaves it. */
  function AfterChildWinRates<S>(n: Node<S>): (r: Node<S>)
    requires WellFormed(n) && n.children.Slots?
    ensures WellFormed(r)
    ensures r.(rateCache := n.rateCache) == n
    ensures r.rateCache == ChildWinRates(n)
  {
    n.(rateCache := ChildWinRates(n))
  }

  /** With exploration factor 0 the scores are the child win rates. */
  lemma ZeroFactorScores<S>(n: Node<S>)
    requires WellFormed(n) && n.children.Slots?
    ensures Scores(n, 0.0) == ChildWinRates(n)
  {
    var a := Scores(n, 0.0);
    var b := ChildWinRates(n);
    forall i | 0 <= i < |n.legal|
      ensures a[i] == b[i]
    {
      var visits := ChildPlays(n);
      assert Bonus(0.0, n.priors[i], n.plays, visits[i]) == 0.0;
    }
  }

  /** Refreshing the rate cache does not change what ChildWinRates reads next. */
  lemma RefreshStable<S>(n: Node<S>)
    requires WellFormed(n) && n.children.Slots?
    ensures ChildWinRates(AfterChildWinRates(n)) == ChildWinRates(n)
  {
    var m := AfterChildWinRates(n);
    assert forall i :: 0 <= i < |n.legal| ==> ChildWinRates(m)[i] == ChildWinRates(n)[i];
  }

  /** Illegal actions score zero: no child, a zero cache entry and a zero prior. */
  lemma IllegalScoresZero<S>(n: Node<S>, f: real)
    requires WellFormed(n) && n.children.Slots?
    ensures forall i :: 0 <= i < |n.legal| && !n.legal[i] ==> Scores(n, f)[i] == 0.0
  {
    forall i | 0 <= i < |n.legal| && !n.legal[i]
      ensures Scores(n, f)[i] == 0.0
    {
      assert !HasChild(n, i);
    }
  }

  /** Whenever it is defined, the exploring distribution sums to one: the
      illegal slots add nothing to the normalising total. */
  lemma ProbabilitySumsToOne<S>(n: Node<S>, f: real)
    requires WellFormed(n) && n.children.Slots?
    requires ChildProbability(n, f).Some?
    ensures Sum(ChildProbability(n, f).value) == 1.0
  {
    Normalised(Scores(n, f), ChildProbability(n, f).value);
  }

  /** On an expanded node every legal slot is refreshed, so the scores follow the
      selection formula exactly and do not depend on what the caches held. */
  lemma ExpandedScores<S>(n: Node<S>, f: real)
    requires WellFormed(n) && Expanded(n)
    ensures forall i :: 0 <= i < |n.legal| ==>
      Scores(n, f)[i] ==
        if n.legal[i] then
          WinRate(ChildAt(n, i)) + Bonus(f, n.priors[i], n.plays, ChildAt(n, i).plays as real)
        else 0.0
  {
    IllegalScoresZero(n, f);
  }

  /** Hence on an expanded node the probability vector is a pure function of
      the tree: two nodes that differ only in their caches give the same vector. */
  lemma ExpandedProbabilityIgnoresCaches<S>(n: Node<S>, m: Node<S>, f: real)
    requires WellFormed(n) && WellFormed(m) && Expanded(n)
    requires m.(rateCache := n.rateCache, playCache := n.playCache) == n
    ensures ChildProbability(n, f) == ChildProbability(m, f)
  {
    ExpandedScores(n, f);
    ExpandedScores(m, f);
    assert Scores(n, f) == Scores(m, f);
  }

  // ------------------------------------------------------------ greedy choice

  /** `np.argmax`: the first index holding the maximum. */
  function FirstArgmax(a: seq<real>): (k: nat)
    requires |a| > 0
    ensures k < |a|
    ensures forall j :: 0 <= j < |a| ==> a[j] <= a[k]
    ensures forall j :: 0 <= j < k ==> a[j] < a[k]
  {
    if |a| == 1 then 0
    else
      var k := FirstArgmax(a[..|a| - 1]);
      if a[|a| - 1] > a[k] then |a| - 1 else k
  }

  /** `np.multiply(root.ChildWinRates(), root.LegalActions)`. */
  function MaskedWinRates<S>(n: Node<S>): (r: seq<real>)
    requires WellFormed(n) && n.children.Slots?
    ensures |r| == |n.legal|
    ensures forall i :: 0 <= i < |n.legal| && HasChild(n, i) ==> r[i] == WinRate(ChildAt(n, i))
    ensures forall i :: 0 <= i < |n.legal| && !n.legal[i] ==> r[i] == 0.0
    ensures forall i :: 0 <= i < |n.legal| && n.legal[i] && !HasChild(n, i) ==>
              r[i] == n.rateCache[i]
  {
    var rates := ChildWinRates(n);
    seq(|n.legal|, i requires 0 <= i < |n.legal| => if n.legal[i] then rates[i] else 0.0)
  }

  /** `_selectAction(root, False)` as written: the first index maximising the
      masked win rates, after asserting that the node has a Children list. */
  function SelectGreedy<S>(n: Node<S>): (r: Result<nat>)
    requires WellFormed(n)
    ensures n.children.Dropped? ==> r == Err(NotExpanded)
    ensures r.Ok? <==> n.children.Slots? && |n.legal| > 0
    ensures r.Ok? ==> r.value < |n.legal|
    ensures r.Ok? ==>
      forall j :: 0 <= j < |n.legal| ==> MaskedWinRates(n)[j] <= MaskedWinRates(n)[r.value]
    ensures r.Ok? ==>
      forall j :: 0 <= j < r.value ==> MaskedWinRates(n)[j] < MaskedWinRates(n)[r.value]
  {
    if n.children.Dropped? then Err(NotExpanded)
    else if |n.legal| == 0 then Err(EmptyActionSpace)
    else Ok(FirstArgmax(MaskedWinRates(n)))
  }

  /** The end-to-end example: legal mask [1,1,0], children with 8 of 10 and 2 of 10
      won; greedy selection picks action 0. */
  lemma GreedyExample()
    ensures var a := Node(0, 8.0, 10, [true, true, false], [0.0, 0.0, 0.0], Slots([]),
                          [0.0, 0.0, 0.0], [0.0, 0.0, 0.0]);
            var b := a.(value := 2.0);
            var root := Node(0, 0.0, 20, [true, true, false], [0.6, 0.4, 0.0],
                             Slots([Child(a), Child(b), Empty]), [0.0, 0.0, 0.0], [0.0, 0.0, 0.0]);
            WellFormed(root) && SelectGreedy(root) == Ok(0)
  {
    var a := Node(0, 8.0, 10, [true, true, false], [0.0, 0.0, 0.0], Slots([]), [0.0, 0.0, 0.0],
                  [0.0, 0.0, 0.0]);
    var b := a.(value := 2.0);
    var root := Node(0, 0.0, 20, [true, true, false], [0.6, 0.4, 0.0],
                     Slots([Child(a), Child(b), Empty]), [0.0, 0.0, 0.0], [0.0, 0.0, 0.0]);
    assert WellFormed(root);
    assert WinRate(a) == 0.8;
    assert WinRate(b) == 0.2;
    assert ChildWinRates(root)[0] == 0.8;
    assert ChildWinRates(root)[1] == 0.2;
    assert MaskedWinRates(root) == [0.8, 0.2, 0.0];
    assert FirstArgmax([0.8, 0.2, 0.0]) == 0;
  }

  /** As written, the greedy choice can be an illegal action: when no legal child
      has a positive win rate, the masked zero of an earlier illegal slot wins. */
  lemma GreedyCanPickIllegal()
    ensures var c := Node(0, 0.0, 4, [false, true], [0.0, 1.0], Slots([]), [0.0, 0.0], [0.0, 0.0]);
            var root := Node(0, 4.0, 5, [false, true], [0.0, 1.0],
                             Slots([Empty, Child(c)]), [0.0, 0.0], [0.0, 0.0]);
            WellFormed(root) && Expanded(root) && SelectGreedy(root) == Ok(0) && !root.legal[0]
  {
    var c := Node(0, 0.0, 4, [false, true], [0.0, 1.0], Slots([]), [0.0, 0.0], [0.0, 0.0]);
    var root := Node(0, 4.0, 5, [false, true], [0.0, 1.0],
                     Slots([Empty, Child(c)]), [0.0, 0.0], [0.0, 0.0]);
    assert WellFormed(root) && Expanded(root);
    assert WinRate(c) == 0.0;
    assert ChildWinRates(root)[1] == 0.0;
    assert MaskedWinRates(root) == [0.0, 0.0];
    assert FirstArgmax([0.0, 0.0]) == 0;
  }

  /** The first legal index maximising the win rate, searching indices `i..`. */
  function BestLegalFrom(rates: seq<real>, legal: seq<bool>, i: nat): (r: Option<nat>)
    requires |rates| == |legal| && i <= |legal|
    ensures r.None? <==> forall j :: i <= j < |legal| ==> !legal[j]
    ensures r.Some? ==> i <= r.value < |legal| && legal[r.value]
    ensures r.Some? ==> forall j :: i <= j < |legal| && legal[j] ==> rates[j] <= rates[r.value]
    ensures r.Some? ==> forall j :: i <= j < r.value && legal[j] ==> rates[j] < rates[r.value]
    decreases |legal| - i
  {
    if i == |legal| then None
    else
      var rest := BestLegalFrom(rates, legal, i + 1);
      if !legal[i] then rest
      else if rest.None? || rates[i] >= rates[rest.value] then Some(i)
      else rest
  }

  /** `a` is a legal action whose child win rate is at least that of every
      legal action. */
  predicate BestLegal<S>(n: Node<S>, a: nat)
    requires WellFormed(n) && n.children.Slots?
  {
    var rates := ChildWinRates(n);
    && a < |n.legal|
    && n.legal[a]
    && forall j :: 0 <= j < |n.legal| && n.legal[j] ==> rates[j] <= rates[a]
  }

  /** The greedy choice as evidently intended: the first legal action with the
      highest win rate, never an illegal one. */
  function SelectGreedyLegal<S>(n: Node<S>): (r: Result<nat>)
    requires WellFormed(n)
    ensures n.children.Dropped? ==> r == Err(NotExpanded)
    ensures r.Ok? <==> n.children.Slots? && exists j :: 0 <= j < |n.legal| && n.legal[j]
    ensures r.Ok? ==> n.children.Slots? && BestLegal(n, r.value)
    ensures r.Ok? ==> forall j :: 0 <= j < r.value && n.legal[j] ==>
      ChildWinRates(n)[j] < ChildWinRates(n)[r.value]
  {
    if n.children.Dropped? then Err(NotExpanded)
    else match BestLegalFrom(ChildWinRates(n), n.legal, 0)
      case None => Err(EmptyActionSpace)
      case Some(k) => Ok(k)
  }

  /** The two choices agree whenever the as-written one lands on a legal action. */
  lemma GreedyAgreesWhenLegal<S>(n: Node<S>)
    requires WellFormed(n)
    requires SelectGreedy(n).Ok? && n.legal[SelectGreedy(n).value]
    ensures SelectGreedyLegal(n) == SelectGreedy(n)
  {
    var k := SelectGreedy(n).value;
    var m := MaskedWinRates(n);
    var rates := ChildWinRates(n);
    assert m[k] == rates[k];
    var r := SelectGreedyLegal(n);
    assert r.Ok?;
    var k' := r.value;
    assert m[k'] == rates[k'];
    assert rates[k'] <= rates[k] && rates[k] <= rates[k'];
    assert k' == k;
  }
}

=== FILE: tree.dfy ===
/** The search-tree node of src/mcts.py and positional navigation inside a tree.

    A node owns its children directly.  The Python parent back-reference is not
    stored: a node is addressed by its path (the sequence of slot indices from the
    top of the tree), and the parent of the node at `p + [i]` is the node at `p`. */
module Tree {
  import opened Common

  /** One entry of a Children list: `None` in Python, or an owned child. */
  datatype Slot<S> = Empty | Child(node: Node<S>)

  /** The three states of `Node.Children`: `None` after truncation or after a merge
      consumed the list, or a Python list (`[]` for a fresh node, one slot per
      action after expansion). */
  datatype Children<S> = Dropped | Slots(slots: seq<Slot<S>>)

  /** A node.  `rateCache` and `playCache` are the `_childWinRates` and
      `_childPlays` arrays, which the selection code reads and writes in place. */
  datatype Node<S> = Node(
    state: S,
    value: real,
    plays: nat,
    legal: seq<bool>,
    priors: seq<real>,
    children: Children<S>,
    rateCache: seq<real>,
    playCache: seq<real>)

  function SlotCount<S>(n: Node<S>): nat
  {
    if n.children.Slots? then |n.children.slots| else 0
  }

  predicate HasChild<S>(n: Node<S>, i: nat)
  {
    n.children.Slots? && i < |n.children.slots| && n.children.slots[i].Child?
  }

  function ChildAt<S>(n: Node<S>, i: nat): Node<S>
    requires HasChild(n, i)
  {
    n.children.slots[i].node
  }

  /** The node-local invariant: every per-action vector has the length of the
      legal mask, children only sit at legal slots, and the priors and both caches
      are zero at every illegal action. */
  predicate WellFormed<S>(n: Node<S>)
  {
    && |n.priors| == |n.legal|
    && |n.rateCache| == |n.legal|
    && |n.playCache| == |n.legal|
    && SlotCount(n) <= |n.legal|
    && (forall i :: 0 <= i < SlotCount(n) && HasChild(n, i) ==> n.legal[i])
    && (forall i :: 0 <= i < |n.legal| ==> n.playCache[i] >= 0.0)
    && (forall i :: 0 <= i < |n.legal| && !n.legal[i] ==>
          n.priors[i] == 0.0 && n.rateCache[i] == 0.0 && n.playCache[i] == 0.0)
  }

  /** A node after `AddChildren`: one slot per action, occupied exactly at the
      legal actions. */
  predicate Expanded<S>(n: Node<S>)
  {
    && n.children.Slots?
    && |n.children.slots| == |n.legal|
    && forall i :: 0 <= i < |n.legal| ==> (n.children.slots[i].Child? <==> n.legal[i])
  }

  /** `Node.__init__`: zero statistics, a fresh empty Children list, the priors
      multiplied by the legal mask and zeroed caches. */
  function NewNode<S>(state: S, legal: seq<bool>, priors: seq<real>): (n: Node<S>)
    requires |priors| == |legal|
    ensures WellFormed(n)
    ensures n.state == state && n.legal == legal
    ensures n.plays == 0 && n.value == 0.0 && n.children == Slots([])
    ensures forall i :: 0 <= i < |legal| ==> n.rateCache[i] == 0.0 && n.playCache[i] == 0.0
    ensures forall i :: 0 <= i < |legal| ==> n.priors[i] == (if legal[i] then priors[i] else 0.0)
  {
    var masked := seq(|legal|, i requires 0 <= i < |legal| => if legal[i] then priors[i] else 0.0);
    var zeros := seq(|legal|, i => 0.0);
    Node(state, 0.0, 0, legal, masked, Slots([]), zeros, zeros)
  }

  /** `a` is the average value of `n`: the value per play, and 0 for a node
      that has not been played. */
  predicate IsAverage<S>(a: real, n: Node<S>)
  {
    && (n.plays > 0 ==> a * (n.plays as real) == n.value)
    && (n.plays == 0 ==> a == 0.0)
  }

  /** `Node.WinRate` (and `Node.AvgValue`, which computes the same quotient). */
  function WinRate<S>(n: Node<S>): (r: real)
    ensures IsAverage(r, n)
  {
    if n.plays > 0 then n.value / (n.plays as real) else 0.0
  }

  /** Everything a node holds except its subtree. */
  function Label<S>(n: Node<S>): Node<S>
  {
    n.(children := Dropped)
  }

  /** `a` and `b` agree on the state of their Children: both None, or both
      lists of the same length.  Together with agreement on which paths are
      valid, this fixes which slots are empty. */
  predicate SameFrame<S>(a: Node<S>, b: Node<S>)
  {
    a.children.Dropped? == b.children.Dropped? && SlotCount(a) == SlotCount(b)
  }

  // ---------------------------------------------------------------- paths

  /** `p` leads from `t` through occupied slots. */
  predicate ValidPath<S>(t: Node<S>, p: seq<nat>)
    decreases |p|
  {
    p == [] || (HasChild(t, p[0]) && ValidPath(ChildAt(t, p[0]), p[1..]))
  }

  function At<S>(t: Node<S>, p: seq<nat>): Node<S>
    requires ValidPath(t, p)
    decreases |p|
  {
    if p == [] then t else At(ChildAt(t, p[0]), p[1..])
  }

  /** Every ancestor of a reachable node is reachable: parent links lead to the top. */
  lemma {:induction false} PrefixValid<S>(t: Node<S>, p: seq<nat>, k: nat)
    requires ValidPath(t, p) && k <= |p|
    ensures ValidPath(t, p[..k])
    decreases |p|
  {
    if k > 0 {
      PrefixValid(ChildAt(t, p[0]), p[1..], k - 1);
      assert p[..k][1..] == p[1..][..k - 1];
    }
  }

  /** Replaces the subtree at `p` by `m`. */
  function Put<S>(t: Node<S>, p: seq<nat>, m: Node<S>): (r: Node<S>)
    requires ValidPath(t, p)
    ensures Label(r) == (if p == [] then Label(m) else Label(t))
    decreases |p|
  {
    if p == [] then m
    else t.(children := Slots(t.children.slots[p[0] := Child(Put(ChildAt(t, p[0]), p[1..], m))]))
  }

  lemma {:induction false} PutAt<S>(t: Node<S>, p: seq<nat>, m: Node<S>)
    requires ValidPath(t, p)
    ensures ValidPath(Put(t, p, m), p) && At(Put(t, p, m), p) == m
    decreases |p|
  {
    if p != [] {
      PutAt(ChildAt(t, p[0]), p[1..], m);
    }
  }

  /** Replacing the subtree at `p` leaves every node that is not at or below `p`
      in place with its own fields and Children state, and every node beside the
      path (neither above nor below `p`) exactly as it was. */
  lemma {:induction false} PutElsewhere<S>(t: Node<S>, p: seq<nat>, m: Node<S>, q: seq<nat>)
    requires ValidPath(t, p) && ValidPath(t, q) && !(p <= q)
    ensures ValidPath(Put(t, p, m), q)
    ensures Label(At(Put(t, p, m), q)) == Label(At(t, q))
        && SameFrame(At(Put(t, p, m), q), At(t, q))
    ensures !(q <= p) ==> At(Put(t, p, m), q) == At(t, q)
    decreases |q|
  {
    var r := Put(t, p, m);
    if q == [] {
      assert SlotCount(r) == SlotCount(t);
    } else if q[0] == p[0] {
      assert p <= q <==> p[1..] <= q[1..];
      assert q <= p <==> q[1..] <= p[1..];
      PutElsewhere(ChildAt(t, p[0]), p[1..], m, q[1..]);
    } else {
      assert ChildAt(r, q[0]) == ChildAt(t, q[0]);
    }
  }

  /** Conversely, replacing the subtree at `p` makes no node reachable outside
      it that was not reachable before. */
  lemma {:induction false} PutAddsNothingElsewhere<S>(t: Node<S>, p: seq<nat>, m: Node<S>,
                                                      q: seq<nat>)
    requires ValidPath(t, p) && !(p <= q)
    requires ValidPath(Put(t, p, m), q)
    ensures ValidPath(t, q)
    decreases |q|
  {
    var r := Put(t, p, m);
    if q != [] {
      if q[0] == p[0] {
        assert p <= q <==> p[1..] <= q[1..];
        PutAddsNothingElsewhere(ChildAt(t, p[0]), p[1..], m, q[1..]);
      } else {
        assert ChildAt(r, q[0]) == ChildAt(t, q[0]);
      }
    }
  }

  /** Adds `dp` plays and `dv` value to the node at `p`, as BackProp does to one
      node of the leaf-to-root path. */
  function Bump<S>(t: Node<S>, p: seq<nat>, dp: nat, dv: real): Node<S>
    requires ValidPath(t, p)
    decreases |p|
  {
    if p == [] then t.(plays := t.plays + dp, value := t.value + dv)
    else
      var c := Child(Bump(ChildAt(t, p[0]), p[1..], dp, dv));
      t.(children := Slots(t.children.slots[p[0] := c]))
  }

  /** A bump keeps the shape of the tree, including every node's Children state,
      and changes the statistics of the target node only. */
  lemma {:induction false} BumpAt<S>(t: Node<S>, p: seq<nat>, dp: nat, dv: real, q: seq<nat>)
    requires ValidPath(t, p)
    ensures ValidPath(Bump(t, p, dp, dv), q) <==> ValidPath(t, q)
    ensures ValidPath(t, q) ==>
      Label(At(Bump(t, p, dp, dv), q)) ==
        if q == p then Label(At(t, q)).(plays := At(t, q).plays + dp, value := At(t, q).value + dv)
        else Label(At(t, q))
    ensures ValidPath(t, q) ==> SameFrame(At(Bump(t, p, dp, dv), q), At(t, q))
    decreases |q|
  {
    var b := Bump(t, p, dp, dv);
    if q == [] {
      assert SlotCount(b) == SlotCount(t);
    } else {
      if p == [] {
        assert b.children == t.children;
      } else if q[0] == p[0] {
        BumpAt(ChildAt(t, p[0]), p[1..], dp, dv, q[1..]);
        assert q == p <==> q[1..] == p[1..];
      } else {
        assert HasChild(b, q[0]) <==> HasChild(t, q[0]);
        if HasChild(t, q[0]) {
          assert ChildAt(b, q[0]) == ChildAt(t, q[0]);
        }
      }
    }
  }

  // ---------------------------------------------------------------- height

  function Height<S>(n: Node<S>): nat
  {
    match n.children
    case Dropped => 0
    case Slots(s) => SlotsHeight(s)
  }

  function SlotsHeight<S>(s: seq<Slot<S>>): nat
  {
    if s == [] then 0 else Max(SlotHeight(s[0]), SlotsHeight(s[1..]))
  }

  function SlotHeight<S>(x: Slot<S>): nat
  {
    match x
    case Empty => 0
    case Child(c) => 1 + Height(c)
  }

  lemma {:induction false} SlotBelow<S>(s: seq<Slot<S>>, i: nat)
    requires i < |s| && s[i].Child?
    ensures Height(s[i].node) < SlotsHeight(s)
  {
    if i > 0 {
      SlotBelow(s[1..], i - 1);
    }
  }

  /** A child is strictly lower than its parent. */
  lemma ChildBelow<S>(n: Node<S>, i: nat)
    requires HasChild(n, i)
    ensures Height(ChildAt(n, i)) < Height(n)
  {
    SlotBelow(n.children.slots, i);
  }
}
